=== FILE: README.md ===
# Cardinal IR and C emitter, modelled in Dafny

Cardinal is a small code-generation library. A client builds an intermediate
representation (IR) and hands it to a backend that prints C. This project
models two parts of it: the IR construction layer (`codegen`) and the C
backend (`c`).

- **IR construction.** Value and block handles are `u32` indices. A block has
  an append-only value table, an append-only statement list and an import
  list. The instruction builder's calls each append a value, a statement, or
  both. Functions hold an ordered block list and a name-keyed variable map.
  Modules hold name-keyed maps of functions and global data.
- **C backend.** `display_value`, `display_instruction` and `display_named`
  are mutually recursive renderers over a block's value table.
  `display_abitype` is a fixed shape table. `compile_function` and `emit`
  assemble the final text.

## How the model is built

Each Rust method that takes `&mut self` becomes a pure function. It maps the
state before the call to the state after it, paired with whatever the call
returns. For example, `iconst_int` becomes `IconstInt(b) = (b', handle)`.

The modules follow the source files:

| module | file | source |
|---|---|---|
| `Entities` | `entities.dfy` | `codegen/src/entities.rs` |
| `Instructions` | `instruction.dfy` | `codegen/src/instruction.rs` |
| `Builder` | `instbuilder.dfy` | `codegen/src/instbuilder.rs` |
| `Functions` | `function.dfy` | `codegen/src/function.rs` |
| `Modules` | `module.dfy` | `codegen/src/module.rs` |
| `CEmitter` | `c_backend.dfy` | `c/src/lib.rs` |

Properties that relate several operations live in separate modules:

- `EmitterProperties` (`emitter_props.dfy`): properties of the emitter, and
  lemmas connecting the builder to the emitter.
- `Scenarios` (`scenarios.dfy`): the worked example of `c/tests/test.rs`,
  proved end to end. The builder calls produce the expected value table,
  `compile_function` produces the expected text, and `emit` produces the
  whole C file.

Small helpers live in `Wrappers` (`Option`, `Result`, and `Sequence` for a
loop of `?`) and `Text` (decimal printing, `join`, flattening, and the
duplicate-free and enumeration predicates).

### Panics become errors

Wherever the source panics, the model returns a `Result` error:

- `InvalidHandle`: a handle outside the value table (`values[i]`).
- `MissingOperand(op, k)`: an operand position the instruction lacks
  (`arguments[k]`).
- `UnsupportedConstruct`: a `Static` accessor (`panic!`).
- `InvalidBlock`: a block handle outside the block list (`get_mut(..).unwrap()`).

### Recursion and termination

A value table can contain a reference cycle, for example an instruction whose
operand is its own handle. The Rust renderers would then recurse without end.
So the model's renderers carry a budget (`fuel`), and a statement starts with
one unit per table entry. Running out of budget gives `CyclicValue`.

`EmitterProperties.StatementNotCyclic` proves that this error never occurs for
a well-formed table, meaning one where every entry refers only to entries
before it. `Builder.ApplyKeepsWellFormed` proves that the builder keeps a
table well formed when the handles passed to it come from the same block.

### Quirks kept as the code has them

The code has several quirks. The model reproduces each one and a lemma states
it:

- `Jmp` renders as `goto` glued to the target with no space, e.g.
  `gotoblock3` (`JmpRendersGoto`).
- `Array(n)` prints `[]` when `n > -1` and `[n]` otherwise. This is the
  reverse of the doc comment on `Type::Array`, which says `-1` means an
  implicit size (`ArrayBracketsReversed`, `ArraySizesCollide`).
- `return_none` builds a `Ret` with no operand. The emitter reads operand 0,
  so that statement can never be rendered (`ReturnNoneFails`).
- `require_import` deduplicates only within one block. `compile_function`
  concatenates the blocks' imports, and `emit` appends every function's
  imports to the backend's list. Neither step deduplicates, so a header that
  two blocks need is included twice (`CompileFunction`, `Emit`).
- The backend keeps its include list across calls, so a second `emit`
  repeats every include (`EmitTwiceRepeatsIncludes`, `ExampleEmitTwice`).
- `ctype_int16` yields `uint16_t` (`CtypeInt16IsUnsigned`).
- A `Call` renders its arguments before its callee, so when both fail, the
  argument's error is reported (`CEmitter.FirstOperandErrorWins`).

### Where the code is not self-consistent

The model makes these choices:

- `CharConstant` is matched by the emitter but missing from `ValueInfo`. It
  is modelled as a variant rendered between single quotes. No builder call
  creates it.
- `AbiParam` is used but never defined. It is modelled as a name paired with
  an `AbiType`, matching how `compile_function` reads it.
- The first field of `AbiType` is declared as a `Named`, but it is built from
  string literals and printed verbatim. It is modelled as a string.

Where the source's own doc comments and its code disagree, the model
follows the code:

- The doc comment on `Type::Array` (codegen/src/entities.rs:45-46) says
  `-1` leaves the size implicit. `display_abitype` (c/src/lib.rs:187-190)
  prints `[]` for every size above -1 and `[-1]` for -1.
- The doc comment on `return_none` (codegen/src/instbuilder.rs:382-383)
  presents it as a plain return from a `void` function. The emitter reads
  operand 0 of every `Ret` (c/src/lib.rs:110), so that statement cannot be
  printed.
- The doc comment on `emit` (c/src/lib.rs:247) promises valid C. The code
  prints `goto` glued to its target (c/src/lib.rs:93), which is not valid C.
  It also repeats includes across blocks and functions (c/src/lib.rs:217,
  258) and on a second call; repeated includes are still valid C, only
  redundant.

## Model

| member | source | states |
|---|---|---|
| `Entities.TruncateU32` | codegen/src/instruction.rs:92 | The `len as u32` cast used for handles is exact for lengths below 2^32 and never exceeds the length. |
| `Entities.SameValue` | codegen/src/entities.rs:7-8 | Derived equality on value handles holds exactly when the wrapped indices are equal. |
| `Entities.SameBlock` | codegen/src/entities.rs:11-12 | Derived equality on block handles holds exactly when the wrapped indices are equal. |
| `Entities.Variable.ToNamed` | codegen/src/entities.rs:20-22 | A variable used as a reference is its own name with no accessors. |
| `Entities.GlobalVariable.ToNamed` | codegen/src/entities.rs:32-34 | A global used as a reference is its own name with no accessors. |
| `Entities.NewNamed` | codegen/src/entities.rs:99-104 | `Named::new(n)` has root name `n` and an empty accessor chain. |
| `Entities.NewNamedProps` | codegen/src/entities.rs:107-112 | `Named::new_props(n, ps)` keeps `n` and every accessor of `ps`, in order. |
| `Instructions.RequireImport` | codegen/src/instruction.rs:85-89 | Afterwards the name is listed. A name already present leaves the block unchanged. A new name is appended at the end. A duplicate-free list stays duplicate-free. Values and statements are untouched. |
| `Instructions.RequireImportIdempotent` | codegen/src/instruction.rs:85-89 | Requiring the same import twice equals requiring it once. |
| `Instructions.RequireImportsFirstSeen` | codegen/src/instruction.rs:86-88 | After any sequence of requires, the earlier imports remain a prefix and the list stays duplicate-free. It holds exactly the earlier imports plus the requested names. |
| `Instructions.CreateValue` | codegen/src/instruction.rs:91-96 | Grows the value table by exactly the given entry, with earlier entries, statements and imports unchanged. Returns the pre-call table length as the handle, and that handle indexes the new entry. |
| `Instructions.CreateInst` | codegen/src/instruction.rs:105-107 | Appends exactly one statement at the end and changes nothing else. |
| `Instructions.CreateNestedBlock` | codegen/src/instruction.rs:98-103 | Appends one nested block, keeps earlier ones, and returns the pre-call count as its handle. Values, statements, imports, the block type and the else branches are unchanged. |
| `Instructions.UseNestedBlock` | codegen/src/instruction.rs:109-111 | Succeeds exactly for an index below the nested-block count and returns that block. Any other index gives `InvalidBlock`. |
| `Instructions.UpdateNestedBlock` | codegen/src/instruction.rs:109-111 | Writing through the borrowed nested block replaces only that block; the other nested blocks, the tables, the imports and the block's type and `else` fields are unchanged. An out-of-range handle gives `InvalidBlock`. |
| `Instructions.CreateThenUseNested` | codegen/src/instruction.rs:98-111 | The handle a nested `create_block` returns retrieves the block just added. |
| `Instructions.AppendKeepsWellFormed` | codegen/src/instruction.rs:91-96 | Appending an entry whose handles all name existing entries keeps the table well formed: each entry refers only to earlier ones. |
| `Builder.IconstInt` | codegen/src/instbuilder.rs:26-28 | Appends one integer constant carrying the argument, adds no statement, and returns the next handle. |
| `Builder.IconstFloat` | codegen/src/instbuilder.rs:31-33 | Appends one float constant carrying the argument and returns the next handle. |
| `Builder.IconstDouble` | codegen/src/instbuilder.rs:36-38 | Appends one double constant carrying the argument and returns the next handle. |
| `Builder.IconstBool` | codegen/src/instbuilder.rs:41-43 | Appends one boolean constant carrying the argument and returns the next handle. |
| `Builder.IconstStr` | codegen/src/instbuilder.rs:46-48 | Appends one string constant carrying the argument and returns the next handle. |
| `Builder.IconstNamed` | codegen/src/instbuilder.rs:51-53 | Appends exactly one reference to the name, with no accessors, keeping earlier entries, statements, imports and nested blocks. Returns the next handle. |
| `Builder.IconstNamedProps` | codegen/src/instbuilder.rs:56-58 | Appends one reference to the name with exactly the given accessors and returns the next handle. |
| `Builder.Iuse` | codegen/src/instbuilder.rs:342-344 | Appends the given reference unchanged as a value and returns the next handle. |
| `Builder.IconstNamedProperty` | codegen/src/instbuilder.rs:61-63 | Produces a field accessor on the given name and does not touch any block. |
| `Builder.IconstNamedStatic` | codegen/src/instbuilder.rs:66-68 | Produces a static accessor on the given name and does not touch any block. |
| `Builder.IconstNamedPointer` | codegen/src/instbuilder.rs:71-73 | Produces a pointer accessor on the given name and does not touch any block. |
| `Builder.IconstNamedIndex` | codegen/src/instbuilder.rs:76-78 | Produces an index accessor on the given handle and does not touch any block. |
| `Builder.Ctype` | codegen/src/instbuilder.rs:82-163 | Every C type has a `Plain` shape. The integer and size types require `stdint.h`, `bool` requires `stdbool.h`, and `char` requires nothing. Values and statements are untouched. |
| `Builder.CtypeIdempotent` | codegen/src/instbuilder.rs:82-163 | Asking for the same C type again adds no further import. |
| `Builder.CtypeInt16IsUnsigned` | codegen/src/instbuilder.rs:133-136 | `ctype_int16` returns the same type as `ctype_uint16`, `uint16_t`. |
| `Builder.IBinary` | codegen/src/instbuilder.rs:166-330 | Each binary operation appends one instruction value with its fixed opcode and operands `[l, r]` in that order, adds no statement, and returns the next handle. |
| `Builder.IUnary` | codegen/src/instbuilder.rs:230-314 | `ibit_not` and `inot` append one instruction value with exactly the one operand and return the next handle. |
| `Builder.Jmp` | codegen/src/instbuilder.rs:333-339 | Appends a block-reference value, then one `Jmp` statement whose only operand is the handle of that new value. Earlier entries, statements, imports and the block's structure are unchanged. |
| `Builder.Set` | codegen/src/instbuilder.rs:347-352 | Appends the statement `Set [k, v]` and no value. |
| `Builder.Call` | codegen/src/instbuilder.rs:355-362 | Appends the statement `Call ([k] + args)` and no value. |
| `Builder.Icall` | codegen/src/instbuilder.rs:365-372 | Appends a value with the same `Call` operand list and no statement. |
| `Builder.Return` | codegen/src/instbuilder.rs:375-380 | Appends a `Ret` statement with the single operand and no value. |
| `Builder.ReturnNone` | codegen/src/instbuilder.rs:384-389 | Appends a `Ret` statement with no operands and no value. |
| `Builder.Apply` | codegen/src/instbuilder.rs:25-389 | Any one builder call only appends to the block. It adds one value exactly for the value-returning calls and `jmp`. A returned handle is the pre-call table length. |
| `Builder.Run` | codegen/src/instruction.rs:91-96 | A sequence of calls only appends. Within 2^32 entries, the handles returned are new and strictly increasing. |
| `Builder.IssuedInOrder` | codegen/src/instruction.rs:91-96 | On a sequence of value-returning calls, the k-th call returns the handle "initial length + k". |
| `Builder.ApplyKeepsWellFormed` | codegen/src/instbuilder.rs:165-372 | A call whose operands name existing entries keeps the table well formed. |
| `Functions.NewSignature` | codegen/src/function.rs:38-43 | No parameters, and a return type of `void` with a `Plain` shape. |
| `Functions.NewFunction` | codegen/src/function.rs:50-57 | Keeps the name and signature, with no variables and no blocks. |
| `Functions.DeclareVar` | codegen/src/function.rs:60-65 | Returns the variable for the name. Maps the name to the type, replacing any earlier type, and leaves other variables and the blocks unchanged. |
| `Functions.EmptyBlock` | codegen/src/function.rs:74-82 | The block `create_block` appends is `Basic`, with every list empty and no else block. |
| `Functions.CreateBlock` | codegen/src/function.rs:73-88 | Appends one empty block, keeps earlier blocks, and returns the pre-call block count as the handle. |
| `Functions.UseBlock` | codegen/src/function.rs:68-70 | Succeeds exactly for an index below the block count and returns that block. Otherwise it gives `InvalidBlock`. |
| `Functions.UpdateBlock` | codegen/src/function.rs:68-70 | Writing through the borrowed block replaces only that block. An out-of-range handle gives `InvalidBlock`. |
| `Functions.CreateThenUse` | codegen/src/function.rs:68-88 | The handle `create_block` returns retrieves an empty block. |
| `Functions.UseUpdateRoundTrip` | codegen/src/function.rs:68-70 | Writing back an unchanged borrowed block changes nothing. A written block is what the next borrow sees. |
| `Modules.NewModule` | codegen/src/module.rs:23-28 | No functions and no data. |
| `Modules.DeclareFunction` | codegen/src/module.rs:31-34 | Stores a block-less, variable-less function with the default signature under the name, replacing any earlier entry. Other names and the data map are unchanged. |
| `Modules.DefineFunction` | codegen/src/module.rs:37-39 | Stores the function under its own name, leaving other names and the data map unchanged. |
| `Modules.DefineFunctionLastWins` | codegen/src/module.rs:37-39 | Defining two functions with the same name keeps only the second. |
| `Modules.DeclareVariable` | codegen/src/module.rs:42-45 | Returns the global for the name. Maps the name to the type in the data map and leaves the functions unchanged. |
| `CEmitter.NewBackend` | c/src/lib.rs:22-27 | The backend holds the module and an empty include list. |
| `CEmitter.InfixSymbolsDistinct` | c/src/lib.rs:32-97 | Different infix opcodes print different C operators. |
| `CEmitter.Operand` | c/src/lib.rs:33 | Reading operand k succeeds exactly when the instruction has it. Otherwise it gives `MissingOperand` at that position. |
| `CEmitter.DisplayValue` | c/src/lib.rs:116-148 | A handle outside the table gives `InvalidHandle`; with the budget spent, an entry gives `CyclicValue`. Any error is justified by the table: a bad handle lies outside it, and an unsupported construct has a `Static` accessor. |
| `CEmitter.OperandText` | c/src/lib.rs:33-111 | An existing operand renders as its value does. A missing one gives `MissingOperand` at that position. |
| `CEmitter.OperandTexts` | c/src/lib.rs:99-105 | Succeeds exactly when every operand from the start position renders. The result holds their texts in operand order. |
| `CEmitter.DisplayInstruction` | c/src/lib.rs:30-113 | Never reports `InvalidBlock`, and an `InvalidHandle` or `CyclicValue` names a handle outside or inside the table respectively. That only operands the syntax reads can fail it is stated by `EmitterProperties.UnreadOperandsIgnored`. |
| `CEmitter.FirstOperandErrorWins` | c/src/lib.rs:30-113 | The first operand to fail, in the order the source reads them, decides the error: operand 0 then operand 1 for an infix opcode; for `Call` the arguments left to right, then the callee; operand 0 for the other opcodes. |
| `CEmitter.PropertyText` | c/src/lib.rs:154-173 | A `Static` accessor fails with `UnsupportedConstruct` for the whole reference. An `Index` accessor whose operand does not render fails with that operand's error. |
| `CEmitter.PropertiesText` | c/src/lib.rs:153-174 | Any `Static` accessor in the chain fails the chain. An `UnsupportedConstruct` for this reference implies it has one. |
| `CEmitter.DisplayNamed` | c/src/lib.rs:150-177 | Any `Static` accessor fails the reference. On success, the text starts with the root name. |
| `CEmitter.DisplayAbiType` | c/src/lib.rs:179-197 | The text starts with the type name. It is the name alone exactly for `Plain` and the name plus `*` exactly for `Pointer`. It is the name plus `[]` exactly for an array of size above -1. An array of size -1 or below prints the name plus `[n]` with the signed size. |
| `CEmitter.DisplayStatement` | c/src/lib.rs:218-220 | A statement is rendered against its own block's value table, and any error it reports is justified by that table. |
| `CEmitter.StatementTexts` | c/src/lib.rs:218-220 | Succeeds exactly when every statement renders. The result holds each statement's text in order. |
| `CEmitter.BlockTexts` | c/src/lib.rs:215-223 | Succeeds exactly when every statement of every block renders. It then holds each block's labelled text, labelled by its position. |
| `CEmitter.CompileFunction` | c/src/lib.rs:200-245 | A block-less function is its bare header with no imports. Otherwise it succeeds exactly when every statement renders. The text is the header, ` {`, the declarations, the labelled blocks and `}`. The imports are the blocks' imports concatenated in block order, duplicates kept. |
| `CEmitter.CollectedIffAllCompile` | c/src/lib.rs:253-259 | The compile loop over the functions succeeds exactly when every function compiles. |
| `CEmitter.CollectedImports` | c/src/lib.rs:253-259 | The imports the loop collects are each function's block imports, in function order. |
| `CEmitter.CollectedTexts` | c/src/lib.rs:253-256 | The texts the loop collects are each function's compiled text, in function order. |
| `CEmitter.Emit` | c/src/lib.rs:248-273 | Succeeds exactly when every function compiles. The include list grows by every function's imports with no deduplication. The text is one `#include <x>` line per entry of the accumulated list, a newline, then the function texts joined by newlines. |
| `EmitterProperties.NestedEntryPassesThrough` | c/src/lib.rs:135-140 | An instruction or reference entry renders exactly as that instruction or reference does, with one unit less budget, so a failure inside it becomes the entry's failure unchanged. |
| `EmitterProperties.ValueNotCyclic` | c/src/lib.rs:116-148 | In a well-formed table (each entry refers only to earlier ones), a value whose handle fits the budget never exhausts it. |
| `EmitterProperties.OperandTextsNotCyclic` | c/src/lib.rs:99-105 | In a well-formed table, the operand loop never exhausts the budget. |
| `EmitterProperties.InstructionNotCyclic` | c/src/lib.rs:30-113 | In a well-formed table, an instruction whose operands fit the budget never exhausts it. |
| `EmitterProperties.PropertiesNotCyclic` | c/src/lib.rs:153-174 | In a well-formed table, an accessor chain whose indexes fit the budget never exhausts it. |
| `EmitterProperties.NamedNotCyclic` | c/src/lib.rs:150-177 | In a well-formed table, a reference whose indexes fit the budget never exhausts it. |
| `EmitterProperties.StatementNotCyclic` | c/src/lib.rs:218-220 | A statement of a well-formed block (each entry refers only to earlier ones) never runs out of budget, so it never gives `CyclicValue`. |
| `EmitterProperties.DisplayInstructionForm` | c/src/lib.rs:30-113 | When all operands render, an instruction renders exactly when it has the operands its syntax reads (2 for infix, 1 otherwise). It then has the reference form `l op r`, `callee(args)` or `prefix x`. Otherwise it fails with `MissingOperand` at the operand count. |
| `EmitterProperties.DisplayInstructionTexts` | c/src/lib.rs:30-113 | An instruction whose operands render as given texts prints the reference form of exactly those texts. |
| `EmitterProperties.UnreadOperandsIgnored` | c/src/lib.rs:30-113 | Operands the C syntax does not read never affect the result. Beyond operand 0 for `Jmp`, `Ret`, `BitNot` and `Not`, and beyond operands 0 and 1 for infix opcodes, an instruction renders, or fails, exactly as it does without them. `Call` reads every operand. |
| `EmitterProperties.DisplayInstructionReadTexts` | c/src/lib.rs:30-113 | An instruction other than a call whose read operands render as given texts has the reference form of those texts, whatever its further operands are. |
| `EmitterProperties.NoOperandsFails` | c/src/lib.rs:109-111 | An instruction with no operands always fails on operand 0. |
| `EmitterProperties.LiteralEntriesRender` | c/src/lib.rs:116-146 | Literal entries print as follows: `block<n>`; decimal integers; `true` or `false`; the float text for both float kinds; strings and characters between their quotes, unescaped. |
| `EmitterProperties.LiteralsRender` | codegen/src/instbuilder.rs:26-48 | The handle a literal builder call returns renders as the C text of exactly the payload passed in. |
| `EmitterProperties.BinaryRenders` | c/src/lib.rs:32-91 | A binary value built from two operands prints as `left op right` with the opcode's operator. |
| `EmitterProperties.UnaryRenders` | c/src/lib.rs:56-85 | `ibit_not` and `inot` values print as `~x` and `!x`. |
| `EmitterProperties.JmpRendersGoto` | c/src/lib.rs:92-94 | The statement `jmp` appends prints as `gotoblock<n>`, with no space. |
| `EmitterProperties.ReturnNoneFails` | codegen/src/instbuilder.rs:384-389 | The statement `return_none` appends can never be printed: `MissingOperand(Ret, 0)`. |
| `EmitterProperties.ReturnRenders` | c/src/lib.rs:109-111 | The statement `return_(v)` appends prints as `return ` followed by the text of `v`. |
| `EmitterProperties.SetRenders` | c/src/lib.rs:95-97 | The statement `set(k, v)` appends prints as `k = v`. |
| `EmitterProperties.CallRenders` | c/src/lib.rs:98-108 | The statement `call(k, args)` appends prints as the callee, then the arguments in order joined by `, ` in parentheses. |
| `EmitterProperties.PropertiesPlain` | c/src/lib.rs:153-167 | A chain of field and pointer accessors prints as the independent accessor path `.f`/`->f`, left to right. |
| `EmitterProperties.DisplayNamedPlain` | c/src/lib.rs:150-177 | A reference with only field and pointer accessors prints as its root name followed by the accessor path. |
| `EmitterProperties.PropertiesIndexed` | c/src/lib.rs:153-174 | In a chain without `Static` whose `Index` operands render as given texts, the rest of the chain from any position prints as `.f`, `->f` or `[t]` per accessor, left to right. |
| `EmitterProperties.DisplayNamedIndexed` | c/src/lib.rs:150-177 | A reference without `Static` whose `Index` operands render as given texts prints as its root name followed by `.f`, `->f` or `[t]` per accessor. |
| `EmitterProperties.DisplayNamedStatic` | c/src/lib.rs:168-172 | A reference whose first failing accessor is `Static` fails as a whole with `UnsupportedConstruct`, never with partial text. |
| `EmitterProperties.StaticFirstFails` | c/src/lib.rs:153-174 | From any position up to a `Static` accessor with no failing accessor in between, the rest of the chain fails with `UnsupportedConstruct`. Accessors after the `Static` one are never reached. |
| `EmitterProperties.DisplayNamedIndexFails` | c/src/lib.rs:150-177 | A reference whose first failing accessor is an `Index` fails with that index operand's error. |
| `EmitterProperties.IndexFirstFails` | c/src/lib.rs:153-174 | From any position up to a failing `Index` accessor with no failing accessor in between, the rest of the chain fails with that operand's error. |
| `EmitterProperties.ArrayBracketsReversed` | c/src/lib.rs:186-191 | `Array(-1)` prints `[-1]`, and any non-negative size prints `[]`. |
| `EmitterProperties.ArraySizesCollide` | c/src/lib.rs:186-191 | Two array types of one name print alike exactly when the sizes are equal or both are above -1. |
| `EmitterProperties.EmitTwiceRepeatsIncludes` | c/src/lib.rs:258 | A second `emit` on the returned backend succeeds again and lists every required include a second time. |
| `EmitterProperties.SameCompilation` | c/src/lib.rs:253-256 | Whether the functions compile depends only on the module and the float text, not on the include list. |
| `EmitterProperties.HeaderTwoParams` | c/src/lib.rs:203-207 | A prototype with two parameters prints each as its type, a space and its name, separated by `, `, in signature order. |
| `EmitterProperties.DeclaredFunctionIsPrototype` | c/src/lib.rs:207-209 | A function only declared in a module compiles to `void <name>()` with no imports. |
| `EmitterProperties.CompileOneBlock` | c/src/lib.rs:208-241 | A one-block function whose statements print as given texts compiles to the header, body, declarations and that single labelled block, with that block's imports. |
| `EmitterProperties.EmitOneFunction` | c/src/lib.rs:248-273 | A one-function module emits exactly when its function compiles. It then gives its include lines, a newline and the function's text, and the backend's list grows by that function's imports. |
| `Text.Decimal` | c/src/lib.rs:129-130 | Integer text is a non-empty string of digits with no leading zero. |
| `Text.DecimalRoundTrip` | c/src/lib.rs:129-130 | Reading back the decimal text of n gives n. |
| `Text.DecimalInjective` | c/src/lib.rs:120-130 | Different numbers (block numbers, integer constants) print differently. |
| `Text.SignedDecimalInjective` | c/src/lib.rs:190 | Different array sizes print differently inside `[n]`. |
| `Scenarios.BuildsSum` | c/tests/test.rs:32-34 | Two `iconst_int(21)` calls and `iadd` on the test's block give handles 0, 1 and 2 and the expected table. |
| `Scenarios.BuildsAssignment` | c/tests/test.rs:31-38 | The test's assignment calls give the first four table entries and the `Set` statement. |
| `Scenarios.BuildsPrintf` | c/tests/test.rs:40-48 | The test's `printf` calls give the remaining entries and the `Call` statement with callee, format and argument in order. |
| `Scenarios.BuildsExampleBlock` | c/tests/test.rs:29-48 | All of the test's calls on a fresh block give exactly the expected table, statements and imports. |
| `Scenarios.ExampleValueTexts` | c/tests/test.rs:32-45 | The test's entries print as `21 + 21`, `my_var`, `printf` and `"%d"`. |
| `Scenarios.ExampleAssignment` | c/tests/test.rs:37 | The first statement prints as `my_var = 21 + 21`. |
| `Scenarios.ExampleCall` | c/tests/test.rs:47 | The second statement prints as `printf("%d", my_var)`. |
| `Scenarios.ExampleFunctionShape` | c/tests/test.rs:18-48 | The test's function calls give `main` with variable `my_var: int` and exactly the built block. |
| `Scenarios.ExampleCompiles` | c/tests/test.rs:16-50 | `compile_function` on the test's function gives `void main() {`, `int my_var;`, the block `block0` with both statements, and `}`, with import `stdio.h`. |
| `Scenarios.ExampleEmits` | c/tests/test.rs:50-53 | `emit` on the test's module returns `#include <stdio.h>` followed by that function text, and the backend's include list becomes `[stdio.h]`. |
| `Scenarios.ParamsHeader` | c/src/lib.rs:203-207 | A function `add` with parameters `a: int32_t` and `s: char*` returning `int32_t` has the prototype `int32_t add(int32_t a, char* s)`. |
| `Scenarios.ExampleEmitTwice` | c/src/lib.rs:258 | A second `emit` of the test's module lists `stdio.h` twice. |

## Left out

- Float text: Rust's `f64` `Display` output is not modelled. The backend
  carries an uninterpreted function `floatText` from the float's bit pattern
  to its text. No property depends on it.
- Hash-map iteration order: `Function.variables` and `Module.functions` are
  Rust `HashMap`s. Their iteration order is a parameter of `CompileFunction`
  and `Emit` (`varOrder`, `fnOrder`, `varOrders`). It is constrained only to
  list every key exactly once. No lemma depends on a particular order.
- Borrowing: `use_block` hands out `&mut InstBlock`. This is modelled as a
  read (`UseBlock`) plus a functional write-back (`UpdateBlock`). Cloning,
  ownership and moves are not modelled.
- Unread block fields: `BlockType`, `elses`, `else_block` and the nested
  blocks' contents are carried as fields. The emitter never reads them, so no
  property mentions them beyond "unchanged".
- `codegen/src/lib.rs` only declares modules, including an `ir` module that
  is not part of this model.
- Panic messages: the text of the `panic!` message for `Static` accessors is
  not modelled, only the failure itself.
- Concurrency: the library has none.
- `isize`: it is modelled as the 64-bit range.
- Handle wrap-around: a table with 2^32 or more entries is modelled (the cast
  truncates). The lemmas about handle order assume fewer entries, where the
  cast is exact.
- Cyclic tables: the model reports `CyclicValue` where Rust would overflow
  its stack. The absence of that error is proved for tables whose entries
  refer only to earlier entries, which is what the builder produces. It is
  not proved for tables that use forward references without forming a cycle,
  which only hand-built tables can contain.
- The test files' `println!` output: the tests are used only as worked
  examples.

=== FILE: c_backend.dfy ===
/** The C backend (c/src/lib.rs): renders values, instructions, named
    references and ABI types as C text, assembles functions, and emits a
    module with its `#include` lines.

    Every place where the source indexes out of range, unwraps nothing or
    panics becomes an `Err`. The renderers recurse through a block's value
    table; they carry a `fuel` budget, and a statement starts with one unit
    per table entry. Every chain of nested renders that visits distinct
    entries fits in that budget, so in a well-formed table (each entry refers
    only to earlier ones) the budget never runs out (`CyclicValue`). */
module CEmitter {
  import opened Wrappers
  import opened Text
  import opened Entities
  import opened Instructions
  import opened Functions
  import opened Modules

  /** The backend: the module to emit, the include list it has accumulated
      across `emit` calls, and the text Rust's `f64` `Display` produces for a
      float payload (left abstract). */
  datatype CBackend = CBackend(ir: Module, imports: seq<string>, floatText: F64 -> string)

  /** `CBackend::new`: the module and an empty include list. */
  function NewBackend(m: Module, floatText: F64 -> string): (be: CBackend)
    ensures be.ir == m && be.imports == []
  {
    CBackend(m, [], floatText)
  }

  /** The C operator of each infix opcode. */
  function InfixSymbol(op: Opcode): string
    requires IsInfix(op)
  {
    match op
    case Add => "+"
    case Sub => "-"
    case Mul => "*"
    case Div => "/"
    case Mod => "%"
    case BitAnd => "&"
    case BitOr => "|"
    case BitXor => "^"
    case BitLeft => "<<"
    case BitRight => ">>"
    case TestEq => "=="
    case TestNeq => "!="
    case TestGt => ">"
    case TestGtEq => ">="
    case TestLt => "<"
    case TestLtEq => "<="
    case Or => "||"
    case And => "&&"
    case Set => "="
  }

  /** The text put directly before the single rendered operand of `~x`,
      `!x`, `gotoX` and `return x`. */
  function PrefixSymbol(op: Opcode): string
    requires !IsInfix(op) && !op.Call?
  {
    match op
    case BitNot => "~"
    case Not => "!"
    case Jmp => "goto"
    case Ret => "return "
  }

  /** Distinct infix opcodes render as distinct operators. */
  lemma InfixSymbolsDistinct(a: Opcode, b: Opcode)
    requires IsInfix(a) && IsInfix(b) && a != b
    ensures InfixSymbol(a) != InfixSymbol(b)
  {
  }

  /** Errors the renderers report only where they are due: a bad handle is
      outside the value table, an unsupported construct has a `Static`
      accessor, and rendering never reports a missing block. */
  predicate ErrorSound<T>(r: Result<T, Error>, values: seq<ValueInfo>) {
    r.Err? ==>
      match r.error
      case InvalidHandle(v) => |values| <= v.index as int
      case CyclicValue(v) => (v.index as int) < |values|
      case UnsupportedConstruct(n) => exists k :: 0 <= k < |n.properties| && n.properties[k].StaticProp?
      case MissingOperand(_, _) => true
      case InvalidBlock(_) => false
  }

  /** `inst.arguments[k]`, or `MissingOperand` where the source indexes out of range. */
  function Operand(inst: InstructionInfo, k: nat): (r: Result<Value, Error>)
    ensures r.Ok? <==> k < |inst.arguments|
    ensures r.Ok? ==> r.value == inst.arguments[k]
    ensures r.Err? ==> r.error == MissingOperand(inst.opcode, k)
  {
    if k < |inst.arguments| then Ok(inst.arguments[k]) else Err(MissingOperand(inst.opcode, k))
  }

  /** `display_value`: the C text of the entry a handle names. The
      renderers receive the block's value table, the only part of the block
      they read. */
  function DisplayValue(fmt: F64 -> string, val: Value, values: seq<ValueInfo>, fuel: nat): (r: Result<string, Error>)
    ensures |values| <= val.index as int ==> r == Err(InvalidHandle(val))
    ensures (val.index as int) < |values| && fuel == 0 ==> r == Err(CyclicValue(val))
    ensures ErrorSound(r, values)
    decreases fuel, 0, 0
  {
    if |values| <= val.index as int then Err(InvalidHandle(val))
    else if fuel == 0 then Err(CyclicValue(val))
    else
      match values[val.index]
      case BlockValue(b) => Ok("block" + Decimal(b.index as nat))
      case BooleanConstant(x) => Ok(if x then "true" else "false")
      case DoubleConstant(d) => Ok(fmt(d))
      case IntegerConstant(n) => Ok(Decimal(n as nat))
      case FloatConstant(f) => Ok(fmt(f))
      case Instruction(inst) => DisplayInstruction(fmt, inst, values, fuel - 1)
      case NamedValue(named) => DisplayNamed(fmt, named, values, fuel - 1)
      case StringConstant(s) => Ok("\"" + s + "\"")
      case CharConstant(c) => Ok("'" + c + "'")
  }

  /** The text of operand `k` of `inst`. */
  function OperandText(fmt: F64 -> string, inst: InstructionInfo, k: nat, values: seq<ValueInfo>, fuel: nat): (r: Result<string, Error>)
    ensures k < |inst.arguments| ==> r == DisplayValue(fmt, inst.arguments[k], values, fuel)
    ensures k >= |inst.arguments| ==> r == Err(MissingOperand(inst.opcode, k))
    ensures ErrorSound(r, values)
    decreases fuel, 1, 0
  {
    var v :- Operand(inst, k);
    DisplayValue(fmt, v, values, fuel)
  }

  /** The texts of operands `from..` of `inst`, left to right; the first failure wins. */
  function OperandTexts(fmt: F64 -> string, inst: InstructionInfo, from: nat, values: seq<ValueInfo>, fuel: nat): (r: Result<seq<string>, Error>)
    ensures r.Ok? <==> forall k :: from <= k < |inst.arguments| ==> DisplayValue(fmt, inst.arguments[k], values, fuel).Ok?
    ensures r.Ok? ==> |r.value| == if from <= |inst.arguments| then |inst.arguments| - from else 0
    ensures r.Ok? ==> forall k :: 0 <= k < |r.value| ==> r.value[k] == DisplayValue(fmt, inst.arguments[from + k], values, fuel).value
    ensures ErrorSound(r, values)
    decreases fuel, 1, |inst.arguments| - from
  {
    if |inst.arguments| <= from then Ok([])
    else
      var head :- DisplayValue(fmt, inst.arguments[from], values, fuel);
      var rest :- OperandTexts(fmt, inst, from + 1, values, fuel);
      Ok([head] + rest)
  }

  /** `display_instruction`: an infix opcode as `l op r`, `BitNot`/`Not` as a
      prefix, `Jmp` as `goto` glued to its target, `Ret` as `return v`, and
      `Call` as `callee(args)`, arguments rendered before the callee. */
  function DisplayInstruction(fmt: F64 -> string, inst: InstructionInfo, values: seq<ValueInfo>, fuel: nat): (r: Result<string, Error>)
    ensures ErrorSound(r, values)
    decreases fuel, 2, 0
  {
    if IsInfix(inst.opcode) then
      var l :- OperandText(fmt, inst, 0, values, fuel);
      var rt :- OperandText(fmt, inst, 1, values, fuel);
      Ok(l + " " + InfixSymbol(inst.opcode) + " " + rt)
    else if inst.opcode.Call? then
      var args :- OperandTexts(fmt, inst, 1, values, fuel);
      var callee :- OperandText(fmt, inst, 0, values, fuel);
      Ok(callee + "(" + Join(args, ", ") + ")")
    else
      var t :- OperandText(fmt, inst, 0, values, fuel);
      Ok(PrefixSymbol(inst.opcode) + t)
  }

  /** The first operand to fail, in the order `display_instruction` reads
      them, decides the error: operand 0 then operand 1 for an infix opcode,
      the arguments left to right then the callee for `Call`, and operand 0
      for the rest. */
  lemma FirstOperandErrorWins(fmt: F64 -> string, inst: InstructionInfo, values: seq<ValueInfo>, fuel: nat)
    ensures var r := DisplayInstruction(fmt, inst, values, fuel);
      && (IsInfix(inst.opcode) && OperandText(fmt, inst, 0, values, fuel).Err? ==>
            r == Err(OperandText(fmt, inst, 0, values, fuel).error))
      && (IsInfix(inst.opcode) && OperandText(fmt, inst, 0, values, fuel).Ok? && OperandText(fmt, inst, 1, values, fuel).Err? ==>
            r == Err(OperandText(fmt, inst, 1, values, fuel).error))
      && (inst.opcode.Call? && OperandTexts(fmt, inst, 1, values, fuel).Err? ==>
            r == Err(OperandTexts(fmt, inst, 1, values, fuel).error))
      && (inst.opcode.Call? && OperandTexts(fmt, inst, 1, values, fuel).Ok? && OperandText(fmt, inst, 0, values, fuel).Err? ==>
            r == Err(OperandText(fmt, inst, 0, values, fuel).error))
      && (!IsInfix(inst.opcode) && !inst.opcode.Call? && OperandText(fmt, inst, 0, values, fuel).Err? ==>
            r == Err(OperandText(fmt, inst, 0, values, fuel).error))
  {
  }

  /** The text of one accessor: `.f`, `->f`, `[v]`; `Static` is unsupported,
      and an index that does not render fails the accessor with its error. */
  function PropertyText(fmt: F64 -> string, named: Named, p: NamedProperty, values: seq<ValueInfo>, fuel: nat): (r: Result<string, Error>)
    ensures p.StaticProp? ==> r == Err(UnsupportedConstruct(named))
    ensures p.IndexProp? && DisplayValue(fmt, p.index, values, fuel).Err? ==>
      r == Err(DisplayValue(fmt, p.index, values, fuel).error)
    ensures !p.StaticProp? && r.Err? ==> ErrorSound(r, values)
    decreases fuel, 0, 1
  {
    match p
    case BasicProp(n) => Ok("." + n)
    case PointerProp(n) => Ok("->" + n)
    case IndexProp(v) => var t :- DisplayValue(fmt, v, values, fuel); Ok("[" + t + "]")
    case StaticProp(_) => Err(UnsupportedConstruct(named))
  }

  /** The texts of accessors `from..` of `named`, concatenated left to right. */
  function PropertiesText(fmt: F64 -> string, named: Named, from: nat, values: seq<ValueInfo>, fuel: nat): (r: Result<string, Error>)
    requires from <= |named.properties|
    ensures (exists k :: from <= k < |named.properties| && named.properties[k].StaticProp?) ==> r.Err?
    ensures r.Err? && r.error.UnsupportedConstruct? && r.error.named == named ==>
      exists k :: 0 <= k < |named.properties| && named.properties[k].StaticProp?
    ensures r.Err? && !(r.error.UnsupportedConstruct? && r.error.named == named) ==> ErrorSound(r, values)
    decreases fuel, 1, |named.properties| - from
  {
    if from == |named.properties| then Ok("")
    else
      var head :- PropertyText(fmt, named, named.properties[from], values, fuel);
      var rest :- PropertiesText(fmt, named, from + 1, values, fuel);
      Ok(head + rest)
  }

  /** `display_named`: the root name, then each accessor left to right; any
      `Static` accessor fails the whole reference. */
  function DisplayNamed(fmt: F64 -> string, named: Named, values: seq<ValueInfo>, fuel: nat): (r: Result<string, Error>)
    ensures (exists k :: 0 <= k < |named.properties| && named.properties[k].StaticProp?) ==> r.Err?
    ensures r.Ok? ==> |named.name| <= |r.value| && r.value[..|named.name|] == named.name
    ensures ErrorSound(r, values)
    decreases fuel, 2, 0
  {
    var suffix :- PropertiesText(fmt, named, 0, values, fuel);
    Ok(named.name + suffix)
  }

  /** `display_abitype`: `Plain` as the name, `Pointer` as name + `*`, and
      `Array(n)` as name + `[]` when `n > -1`, else name + `[n]`. */
  function DisplayAbiType(t: AbiType): (s: string)
    ensures |t.name| <= |s| && s[..|t.name|] == t.name
    ensures t.shape.Plain? <==> |s| == |t.name|
    ensures t.shape.Pointer? <==> s == t.name + "*"
    ensures t.shape.Array? && t.shape.size > -1 <==> s == t.name + "[]"
    ensures t.shape.Array? && t.shape.size <= -1 ==> s == t.name + "[" + SignedDecimal(t.shape.size as int) + "]"
  {
    match t.shape
    case Plain => t.name
    case Array(n) => if n > -1 then t.name + "[]" else t.name + "[" + SignedDecimal(n as int) + "]"
    case Pointer => t.name + "*"
  }

  /** A statement of a block, rendered with one unit of fuel per value table entry. */
  function DisplayStatement(fmt: F64 -> string, block: InstBlock, i: nat): (r: Result<string, Error>)
    requires i < |block.insts|
    ensures ErrorSound(r, block.values)
  {
    DisplayInstruction(fmt, block.insts[i], block.values, |block.values|)
  }

  /** The text of a statement that renders, and the empty string for one that does not. */
  function StatementText(fmt: F64 -> string, block: InstBlock, i: nat): string
    requires i < |block.insts|
  {
    match DisplayStatement(fmt, block, i)
    case Ok(s) => s
    case Err(_) => ""
  }

  /** Whether the statements `from..` of a block all render. */
  predicate StatementsRender(fmt: F64 -> string, block: InstBlock, from: nat) {
    forall j :: from <= j < |block.insts| ==> DisplayStatement(fmt, block, j).Ok?
  }

  /** Whether every statement of the blocks `from..` renders. */
  predicate AllStatementsRender(fmt: F64 -> string, blocks: seq<InstBlock>, from: nat) {
    forall i :: from <= i < |blocks| ==> StatementsRender(fmt, blocks[i], 0)
  }

  /** The statements of a block as they appear in its labelled text. */
  function BlockStatements(fmt: F64 -> string, block: InstBlock): seq<string> {
    seq(|block.insts|, j requires 0 <= j < |block.insts| => StatementText(fmt, block, j))
  }

  /** The texts of the statements `from..` of a block, in order. */
  function StatementTexts(fmt: F64 -> string, block: InstBlock, from: nat): (r: Result<seq<string>, Error>)
    requires from <= |block.insts|
    ensures r.Ok? <==> StatementsRender(fmt, block, from)
    ensures r.Ok? ==> |r.value| == |block.insts| - from
    ensures r.Ok? ==> forall k :: 0 <= k < |r.value| ==> r.value[k] == StatementText(fmt, block, from + k)
    decreases |block.insts| - from
  {
    if from == |block.insts| then Ok([])
    else
      assert StatementsRender(fmt, block, from) <==>
        DisplayStatement(fmt, block, from).Ok? && StatementsRender(fmt, block, from + 1);
      var head :- DisplayStatement(fmt, block, from);
      var rest :- StatementTexts(fmt, block, from + 1);
      var texts := [head] + rest;
      assert forall k :: 0 < k < |texts| ==> texts[k] == rest[k - 1];
      Ok(texts)
  }

  /** The labelled text of block `index`: `block<index>: {`, the statements
      each followed by `;`, then `}`. */
  function BlockText(index: nat, stmts: seq<string>): string {
    "block" + Decimal(index) + ": {\n" + Join(stmts, ";\n") + ";\n}\n"
  }

  /** The labelled text of every block, each labelled with its position. */
  function LabelledBlocks(fmt: F64 -> string, blocks: seq<InstBlock>): seq<string> {
    seq(|blocks|, i requires 0 <= i < |blocks| => BlockText(i, BlockStatements(fmt, blocks[i])))
  }

  /** The labelled texts of blocks `from..`. */
  function BlockTexts(fmt: F64 -> string, blocks: seq<InstBlock>, from: nat): (r: Result<seq<string>, Error>)
    requires from <= |blocks|
    ensures r.Ok? <==> AllStatementsRender(fmt, blocks, from)
    ensures r.Ok? ==> |r.value| == |blocks| - from
    ensures r.Ok? ==> forall k :: 0 <= k < |r.value| ==> r.value[k] == LabelledBlocks(fmt, blocks)[from + k]
    decreases |blocks| - from
  {
    if from == |blocks| then Ok([])
    else
      assert AllStatementsRender(fmt, blocks, from) <==>
        StatementsRender(fmt, blocks[from], 0) && AllStatementsRender(fmt, blocks, from + 1);
      var stmts :- StatementTexts(fmt, blocks[from], 0);
      var rest :- BlockTexts(fmt, blocks, from + 1);
      assert stmts == BlockStatements(fmt, blocks[from]);
      var texts := [BlockText(from, stmts)] + rest;
      assert forall k :: 0 < k < |texts| ==> texts[k] == rest[k - 1];
      Ok(texts)
  }

  /** The imports of the blocks, concatenated in block order, duplicates kept. */
  function BlockImports(blocks: seq<InstBlock>): seq<string> {
    Flatten(seq(|blocks|, i requires 0 <= i < |blocks| => blocks[i].imports))
  }

  /** A parameter as `<type> <name>`. */
  function ParamText(p: AbiParam): string {
    DisplayAbiType(p.ty) + " " + p.name
  }

  /** `<return type> <name>(<params joined by ", ">)`. */
  function Header(f: Function): string {
    var params := seq(|f.signature.arguments|, i requires 0 <= i < |f.signature.arguments| => ParamText(f.signature.arguments[i]));
    DisplayAbiType(f.signature.returnType) + " " + f.name + "(" + Join(params, ", ") + ")"
  }

  /** The variable declarations `<type> <name>`, in the given map iteration order. */
  function VarDecls(f: Function, varOrder: seq<string>): seq<string>
    requires forall i :: 0 <= i < |varOrder| ==> varOrder[i] in f.variables
  {
    seq(|varOrder|, i requires 0 <= i < |varOrder| => DisplayAbiType(f.variables[varOrder[i]]) + " " + varOrder[i])
  }

  /** The declarations joined by `;\n`, plus a final `;\n` when there are any. */
  function VarSection(decls: seq<string>): string {
    Join(decls, ";\n") + (if |decls| > 0 then ";\n" else "")
  }

  /** The body of a function with blocks: ` {`, declarations, labelled blocks, `}`. */
  function Body(fmt: F64 -> string, f: Function, varOrder: seq<string>): string
    requires forall i :: 0 <= i < |varOrder| ==> varOrder[i] in f.variables
  {
    " {\n" + VarSection(VarDecls(f, varOrder)) + Join(LabelledBlocks(fmt, f.blocks), "\n") + "}"
  }

  /** `compile_function`, with `varOrder` the iteration order of the variable map:
      a block-less function is its bare header with no imports; otherwise the
      header, ` {`, the variable declarations, the labelled blocks joined by a
      newline and `}`, with the blocks' imports concatenated in block order. */
  function CompileFunction(fmt: F64 -> string, f: Function, varOrder: seq<string>): (r: Result<(string, seq<string>), Error>)
    requires Enumerates(varOrder, f.variables.Keys)
    ensures |f.blocks| == 0 ==> r == Ok((Header(f), []))
    ensures r.Ok? <==> AllStatementsRender(fmt, f.blocks, 0)
    ensures r.Ok? ==> r.value.1 == BlockImports(f.blocks)
    ensures r.Ok? && 0 < |f.blocks| ==> r.value.0 == Header(f) + Body(fmt, f, varOrder)
  {
    if |f.blocks| == 0 then Ok((Header(f), []))
    else
      var blocks :- BlockTexts(fmt, f.blocks, 0);
      assert blocks == LabelledBlocks(fmt, f.blocks) by {
        var labelled := LabelledBlocks(fmt, f.blocks);
        forall k | 0 <= k < |blocks|
          ensures blocks[k] == labelled[k]
        {
          assert blocks[k] == labelled[0 + k];
        }
      }
      Ok((Header(f) + (" {\n" + VarSection(VarDecls(f, varOrder)) + Join(blocks, "\n") + "}"), BlockImports(f.blocks)))
  }

  /** The iteration orders the emitter is given: `fnOrder` for the module's
      function map, and one order per function for its variable map. */
  predicate ValidOrders(m: Module, fnOrder: seq<string>, varOrders: map<string, seq<string>>) {
    && Enumerates(fnOrder, m.functions.Keys)
    && forall n :: n in m.functions ==> n in varOrders && Enumerates(varOrders[n], m.functions[n].variables.Keys)
  }

  /** Every name of `fnOrder` is a function with a variable order. */
  predicate OrdersCover(m: Module, fnOrder: seq<string>, varOrders: map<string, seq<string>>) {
    forall i :: 0 <= i < |fnOrder| ==>
      && fnOrder[i] in m.functions && fnOrder[i] in varOrders
      && Enumerates(varOrders[fnOrder[i]], m.functions[fnOrder[i]].variables.Keys)
  }

  lemma ValidOrdersCover(m: Module, fnOrder: seq<string>, varOrders: map<string, seq<string>>)
    requires ValidOrders(m, fnOrder, varOrders)
    ensures OrdersCover(m, fnOrder, varOrders)
  {
  }

  /** The compiled result of function `i` of the order. */
  function CompileNth(be: CBackend, fnOrder: seq<string>, varOrders: map<string, seq<string>>, i: nat): Result<(string, seq<string>), Error>
    requires OrdersCover(be.ir, fnOrder, varOrders) && i < |fnOrder|
  {
    CompileFunction(be.floatText, be.ir.functions[fnOrder[i]], varOrders[fnOrder[i]])
  }

  /** The text of function `i` of the order, or the empty string if it does not compile. */
  function FunctionText(be: CBackend, fnOrder: seq<string>, varOrders: map<string, seq<string>>, i: nat): string
    requires OrdersCover(be.ir, fnOrder, varOrders) && i < |fnOrder|
  {
    var c := CompileNth(be, fnOrder, varOrders, i);
    if c.Ok? then c.value.0 else ""
  }

  /** Whether every function of the order compiles. */
  predicate AllCompile(be: CBackend, fnOrder: seq<string>, varOrders: map<string, seq<string>>)
    requires OrdersCover(be.ir, fnOrder, varOrders)
  {
    forall i :: 0 <= i < |fnOrder| ==> CompileNth(be, fnOrder, varOrders, i).Ok?
  }

  /** One `#include <x>` line per entry. */
  function IncludeLines(imports: seq<string>): seq<string> {
    seq(|imports|, i requires 0 <= i < |imports| => "#include <" + imports[i] + ">")
  }

  /** The imports every function of the module contributes, in `fnOrder`. */
  function ModuleImports(m: Module, fnOrder: seq<string>): seq<string>
    requires forall i :: 0 <= i < |fnOrder| ==> fnOrder[i] in m.functions
  {
    Flatten(seq(|fnOrder|, i requires 0 <= i < |fnOrder| => BlockImports(m.functions[fnOrder[i]].blocks)))
  }

  /** The function texts in `fnOrder`. */
  function FunctionTexts(be: CBackend, fnOrder: seq<string>, varOrders: map<string, seq<string>>): seq<string>
    requires OrdersCover(be.ir, fnOrder, varOrders)
  {
    seq(|fnOrder|, i requires 0 <= i < |fnOrder| => FunctionText(be, fnOrder, varOrders, i))
  }

  /** The imports of the compiled functions, concatenated in order. */
  function ImportsOf(compiled: seq<(string, seq<string>)>): seq<string> {
    Flatten(seq(|compiled|, i requires 0 <= i < |compiled| => compiled[i].1))
  }

  /** The texts of the compiled functions, in order. */
  function TextsOf(compiled: seq<(string, seq<string>)>): seq<string> {
    seq(|compiled|, i requires 0 <= i < |compiled| => compiled[i].0)
  }

  /** `results` holds the compiled result of each function of the order. */
  predicate CompiledEach(be: CBackend, fnOrder: seq<string>, varOrders: map<string, seq<string>>,
                         results: seq<Result<(string, seq<string>), Error>>)
    requires OrdersCover(be.ir, fnOrder, varOrders)
  {
    |results| == |fnOrder| && forall i :: 0 <= i < |fnOrder| ==> results[i] == CompileNth(be, fnOrder, varOrders, i)
  }

  /** Collecting the compiled functions succeeds exactly when every function compiles. */
  lemma CollectedIffAllCompile(be: CBackend, fnOrder: seq<string>, varOrders: map<string, seq<string>>,
                               results: seq<Result<(string, seq<string>), Error>>)
    requires OrdersCover(be.ir, fnOrder, varOrders) && CompiledEach(be, fnOrder, varOrders, results)
    ensures Sequence(results).Ok? <==> AllCompile(be, fnOrder, varOrders)
  {
  }

  /** The collected imports are each function's blocks' imports, in order. */
  lemma CollectedImports(be: CBackend, fnOrder: seq<string>, varOrders: map<string, seq<string>>,
                         results: seq<Result<(string, seq<string>), Error>>)
    requires OrdersCover(be.ir, fnOrder, varOrders) && CompiledEach(be, fnOrder, varOrders, results)
    requires Sequence(results).Ok?
    ensures ImportsOf(Sequence(results).value) == ModuleImports(be.ir, fnOrder)
  {
    var compiled := Sequence(results).value;
    forall i | 0 <= i < |fnOrder|
      ensures compiled[i].1 == BlockImports(be.ir.functions[fnOrder[i]].blocks)
    {
      assert results[i] == Ok(compiled[i]);
    }
    assert seq(|compiled|, i requires 0 <= i < |compiled| => compiled[i].1) ==
      seq(|fnOrder|, i requires 0 <= i < |fnOrder| => BlockImports(be.ir.functions[fnOrder[i]].blocks));
  }

  /** The collected texts are each function's text, in order. */
  lemma CollectedTexts(be: CBackend, fnOrder: seq<string>, varOrders: map<string, seq<string>>,
                       results: seq<Result<(string, seq<string>), Error>>)
    requires OrdersCover(be.ir, fnOrder, varOrders) && CompiledEach(be, fnOrder, varOrders, results)
    requires Sequence(results).Ok?
    ensures TextsOf(Sequence(results).value) == FunctionTexts(be, fnOrder, varOrders)
  {
    var compiled := Sequence(results).value;
    forall i | 0 <= i < |fnOrder|
      ensures compiled[i].0 == FunctionText(be, fnOrder, varOrders, i)
    {
      assert results[i] == Ok(compiled[i]);
    }
  }

  /** `emit`: compiles each function in map order, appends its imports to the
      backend's include list (which persists across calls and is never
      deduplicated), then renders one `#include` line per entry of that list,
      a newline, and the function texts joined by newlines. */
  function Emit(be: CBackend, fnOrder: seq<string>, varOrders: map<string, seq<string>>): (r: Result<(CBackend, string), Error>)
    requires ValidOrders(be.ir, fnOrder, varOrders)
    ensures OrdersCover(be.ir, fnOrder, varOrders)
    ensures r.Ok? <==> AllCompile(be, fnOrder, varOrders)
    ensures r.Ok? ==> r.value.0.ir == be.ir && r.value.0.floatText == be.floatText
    ensures r.Ok? ==> r.value.0.imports == be.imports + ModuleImports(be.ir, fnOrder)
    ensures r.Ok? ==>
      r.value.1 == Join(IncludeLines(r.value.0.imports), "\n") + "\n" + Join(FunctionTexts(be, fnOrder, varOrders), "\n")
  {
    ValidOrdersCover(be.ir, fnOrder, varOrders);
    var results := seq(|fnOrder|, i requires 0 <= i < |fnOrder| => CompileNth(be, fnOrder, varOrders, i));
    var all := Sequence(results);
    assert CompiledEach(be, fnOrder, varOrders, results);
    CollectedIffAllCompile(be, fnOrder, varOrders, results);
    if all.Err? then Err(all.error) else
    CollectedImports(be, fnOrder, varOrders, results);
    CollectedTexts(be, fnOrder, varOrders, results);
    var imports := be.imports + ImportsOf(all.value);
    Ok((be.(imports := imports), Join(IncludeLines(imports), "\n") + "\n" + Join(TextsOf(all.value), "\n")))
  }
}

=== FILE: emitter_props.dfy ===
/** Properties of the C emitter: well-formed value tables never exhaust the
    rendering budget, the arity each opcode's syntax needs, the exact text of
    statements the instruction builder produces, the ABI type table's
    collisions, and the include list growing on every `emit`. */
module EmitterProperties {
  import opened Wrappers
  import opened Text
  import opened Entities
  import opened Instructions
  import opened Builder
  import opened Functions
  import opened Modules
  import opened CEmitter

  /** The result is not the budget-exhausted error. */
  predicate NotCyclic<T>(r: Result<T, Error>) {
    r.Err? ==> !r.error.CyclicValue?
  }

  /** A handle the budget covers: either outside the table (a bad handle,
      reported before any budget is spent) or below the remaining budget. */
  predicate Covered(v: Value, block: InstBlock, fuel: nat) {
    |block.values| <= v.index as int || (v.index as int) < fuel
  }

  /** Every operand of `inst` is covered by the budget. */
  predicate OperandsCovered(inst: InstructionInfo, block: InstBlock, fuel: nat) {
    forall k :: 0 <= k < |inst.arguments| ==> Covered(inst.arguments[k], block, fuel)
  }

  /** Every `Index` accessor of `named` is covered by the budget. */
  predicate IndexesCovered(named: Named, block: InstBlock, fuel: nat) {
    forall k :: 0 <= k < |named.properties| && named.properties[k].IndexProp? ==>
      Covered(named.properties[k].index, block, fuel)
  }

  /** In a well-formed table, rendering a covered handle never runs out of budget. */
  lemma {:induction false} ValueNotCyclic(fmt: F64 -> string, val: Value, block: InstBlock, fuel: nat)
    requires WellFormed(block) && Covered(val, block, fuel)
    ensures NotCyclic(DisplayValue(fmt, val, block.values, fuel))
    decreases fuel, 0, 0
  {
    if (val.index as int) < |block.values| {
      var i := val.index as int;
      assert HandlesBelow(block.values[i], i);
      match block.values[i]
      case Instruction(inst) =>
        assert OperandsBelow(inst, i);
        assert OperandsCovered(inst, block, fuel - 1) by {
          forall k | 0 <= k < |inst.arguments|
            ensures Covered(inst.arguments[k], block, fuel - 1)
          {
          }
        }
        InstructionNotCyclic(fmt, inst, block, fuel - 1);
      case NamedValue(named) =>
        assert IndexesBelow(named, i);
        assert IndexesCovered(named, block, fuel - 1) by {
          forall k | 0 <= k < |named.properties| && named.properties[k].IndexProp?
            ensures Covered(named.properties[k].index, block, fuel - 1)
          {
          }
        }
        NamedNotCyclic(fmt, named, block, fuel - 1);
      case _ =>
    }
  }

  lemma {:induction false} OperandTextsNotCyclic(fmt: F64 -> string, inst: InstructionInfo, from: nat, block: InstBlock, fuel: nat)
    requires WellFormed(block) && OperandsCovered(inst, block, fuel)
    ensures NotCyclic(OperandTexts(fmt, inst, from, block.values, fuel))
    decreases fuel, 1, |inst.arguments| - from
  {
    if from < |inst.arguments| {
      ValueNotCyclic(fmt, inst.arguments[from], block, fuel);
      OperandTextsNotCyclic(fmt, inst, from + 1, block, fuel);
    }
  }

  /** In a well-formed table, an instruction whose operands are covered renders without running out of budget. */
  lemma {:induction false} InstructionNotCyclic(fmt: F64 -> string, inst: InstructionInfo, block: InstBlock, fuel: nat)
    requires WellFormed(block) && OperandsCovered(inst, block, fuel)
    ensures NotCyclic(DisplayInstruction(fmt, inst, block.values, fuel))
    decreases fuel, 2, 0
  {
    if 0 < |inst.arguments| {
      ValueNotCyclic(fmt, inst.arguments[0], block, fuel);
    }
    if 1 < |inst.arguments| {
      ValueNotCyclic(fmt, inst.arguments[1], block, fuel);
    }
    if inst.opcode.Call? {
      OperandTextsNotCyclic(fmt, inst, 1, block, fuel);
    }
  }

  lemma {:induction false} PropertiesNotCyclic(fmt: F64 -> string, named: Named, from: nat, block: InstBlock, fuel: nat)
    requires WellFormed(block) && IndexesCovered(named, block, fuel) && from <= |named.properties|
    ensures NotCyclic(PropertiesText(fmt, named, from, block.values, fuel))
    decreases fuel, 1, |named.properties| - from
  {
    if from < |named.properties| {
      var p := named.properties[from];
      if p.IndexProp? {
        ValueNotCyclic(fmt, p.index, block, fuel);
      }
      PropertiesNotCyclic(fmt, named, from + 1, block, fuel);
    }
  }

  /** In a well-formed table, a reference whose indexes are covered renders without running out of budget. */
  lemma {:induction false} NamedNotCyclic(fmt: F64 -> string, named: Named, block: InstBlock, fuel: nat)
    requires WellFormed(block) && IndexesCovered(named, block, fuel)
    ensures NotCyclic(DisplayNamed(fmt, named, block.values, fuel))
    decreases fuel, 2, 0
  {
    PropertiesNotCyclic(fmt, named, 0, block, fuel);
  }

  /** A statement of a well-formed block (each entry refers only to earlier
      ones) never runs out of budget: one unit per table entry is enough. */
  lemma StatementNotCyclic(fmt: F64 -> string, block: InstBlock, i: nat)
    requires WellFormed(block) && i < |block.insts|
    ensures NotCyclic(DisplayStatement(fmt, block, i))
  {
    InstructionNotCyclic(fmt, block.insts[i], block, |block.values|);
  }

  /** The fewest operands each opcode's C syntax reads: both sides of an
      infix operator, the callee of a call, the single operand of a prefix
      form. */
  function MinArity(op: Opcode): nat {
    if IsInfix(op) then 2 else 1
  }

  /** The C form of an instruction given its operands' texts in order, as a
      reference independent of the renderer's traversal. */
  function InstructionForm(op: Opcode, texts: seq<string>): string
    requires MinArity(op) <= |texts|
  {
    if IsInfix(op) then texts[0] + " " + InfixSymbol(op) + " " + texts[1]
    else if op.Call? then texts[0] + "(" + Join(texts[1..], ", ") + ")"
    else PrefixSymbol(op) + texts[0]
  }

  /** Every operand of `inst` renders. */
  predicate OperandsRender(fmt: F64 -> string, inst: InstructionInfo, values: seq<ValueInfo>, fuel: nat) {
    forall k :: 0 <= k < |inst.arguments| ==> DisplayValue(fmt, inst.arguments[k], values, fuel).Ok?
  }

  /** The operand texts of an instruction whose operands all render. */
  function OperandValues(fmt: F64 -> string, inst: InstructionInfo, values: seq<ValueInfo>, fuel: nat): (ts: seq<string>)
    requires OperandsRender(fmt, inst, values, fuel)
    ensures |ts| == |inst.arguments|
  {
    seq(|inst.arguments|, k requires 0 <= k < |inst.arguments| && OperandsRender(fmt, inst, values, fuel) =>
      DisplayValue(fmt, inst.arguments[k], values, fuel).value)
  }

  /** An instruction or reference entry renders as that instruction or
      reference does with one unit less budget, so a failure inside it is
      the entry's failure, unchanged. */
  lemma NestedEntryPassesThrough(fmt: F64 -> string, val: Value, values: seq<ValueInfo>, fuel: nat)
    requires (val.index as int) < |values| && 0 < fuel
    ensures values[val.index].Instruction? ==>
      DisplayValue(fmt, val, values, fuel) == DisplayInstruction(fmt, values[val.index].inst, values, fuel - 1)
    ensures values[val.index].NamedValue? ==>
      DisplayValue(fmt, val, values, fuel) == DisplayNamed(fmt, values[val.index].named, values, fuel - 1)
  {
  }

  /** When every operand renders, an instruction renders exactly when it has
      the operands its syntax reads; it then has the reference form, and
      otherwise fails on the first missing position. */
  lemma DisplayInstructionForm(fmt: F64 -> string, inst: InstructionInfo, values: seq<ValueInfo>, fuel: nat)
    requires OperandsRender(fmt, inst, values, fuel)
    ensures var r := DisplayInstruction(fmt, inst, values, fuel);
      && (r.Ok? <==> MinArity(inst.opcode) <= |inst.arguments|)
      && (r.Ok? ==> r.value == InstructionForm(inst.opcode, OperandValues(fmt, inst, values, fuel)))
      && (r.Err? ==> r.error == MissingOperand(inst.opcode, |inst.arguments|))
  {
    var ts := OperandValues(fmt, inst, values, fuel);
    if inst.opcode.Call? && 0 < |inst.arguments| {
      var args := OperandTexts(fmt, inst, 1, values, fuel);
      assert args.Ok?;
      assert args.value == ts[1..];
    }
  }

  /** An instruction whose operands render as `texts` and that has the
      operands its syntax reads renders in the reference form of `texts`. */
  lemma DisplayInstructionTexts(fmt: F64 -> string, inst: InstructionInfo, values: seq<ValueInfo>, fuel: nat, texts: seq<string>)
    requires |texts| == |inst.arguments| && MinArity(inst.opcode) <= |texts|
    requires forall k :: 0 <= k < |texts| ==> DisplayValue(fmt, inst.arguments[k], values, fuel) == Ok(texts[k])
    ensures DisplayInstruction(fmt, inst, values, fuel) == Ok(InstructionForm(inst.opcode, texts))
  {
    assert OperandsRender(fmt, inst, values, fuel);
    DisplayInstructionForm(fmt, inst, values, fuel);
    assert OperandValues(fmt, inst, values, fuel) == texts;
  }

  /** The operands of `inst` its C syntax reads: all of them for a call,
      otherwise at most `MinArity` from the front. */
  function ReadOperands(inst: InstructionInfo): (args: seq<Value>)
    ensures |args| <= |inst.arguments| && args == inst.arguments[..|args|]
    ensures inst.opcode.Call? ==> args == inst.arguments
    ensures !inst.opcode.Call? ==> |args| == if MinArity(inst.opcode) <= |inst.arguments| then MinArity(inst.opcode) else |inst.arguments|
  {
    if inst.opcode.Call? || |inst.arguments| <= MinArity(inst.opcode) then inst.arguments
    else inst.arguments[..MinArity(inst.opcode)]
  }

  /** Operands the syntax does not read never affect the result: an
      instruction renders, or fails, exactly as it does with only the
      operands it reads. */
  lemma UnreadOperandsIgnored(fmt: F64 -> string, inst: InstructionInfo, values: seq<ValueInfo>, fuel: nat)
    ensures DisplayInstruction(fmt, inst, values, fuel) == DisplayInstruction(fmt, inst.(arguments := ReadOperands(inst)), values, fuel)
  {
    var read := inst.(arguments := ReadOperands(inst));
    if !inst.opcode.Call? {
      assert OperandText(fmt, inst, 0, values, fuel) == OperandText(fmt, read, 0, values, fuel);
      if IsInfix(inst.opcode) {
        assert OperandText(fmt, inst, 1, values, fuel) == OperandText(fmt, read, 1, values, fuel);
      }
    }
  }

  /** An instruction other than a call whose read operands render as
      `texts` renders in the reference form of `texts`, whatever its
      further operands are. */
  lemma DisplayInstructionReadTexts(fmt: F64 -> string, inst: InstructionInfo, values: seq<ValueInfo>, fuel: nat, texts: seq<string>)
    requires !inst.opcode.Call? && MinArity(inst.opcode) <= |inst.arguments|
    requires |texts| == MinArity(inst.opcode)
    requires forall k :: 0 <= k < |texts| ==> DisplayValue(fmt, inst.arguments[k], values, fuel) == Ok(texts[k])
    ensures DisplayInstruction(fmt, inst, values, fuel) == Ok(InstructionForm(inst.opcode, texts))
  {
    UnreadOperandsIgnored(fmt, inst, values, fuel);
    DisplayInstructionTexts(fmt, inst.(arguments := ReadOperands(inst)), values, fuel, texts);
  }

  /** An instruction with no operands always fails on operand 0. */
  lemma NoOperandsFails(fmt: F64 -> string, inst: InstructionInfo, values: seq<ValueInfo>, fuel: nat)
    requires inst.arguments == []
    ensures DisplayInstruction(fmt, inst, values, fuel) == Err(MissingOperand(inst.opcode, 0))
  {
    DisplayInstructionForm(fmt, inst, values, fuel);
  }

  /** Any handle inside the table with budget left renders its literal
      entry directly: `block<n>` for a block, decimal integers,
      `true`/`false`, the float text for both float kinds, and strings and
      characters between their quotes, unescaped. */
  lemma LiteralEntriesRender(fmt: F64 -> string, val: Value, values: seq<ValueInfo>, fuel: nat)
    requires (val.index as int) < |values| && 0 < fuel
    ensures var v := values[val.index]; var r := DisplayValue(fmt, val, values, fuel);
      && (v.BlockValue? ==> r == Ok("block" + Decimal(v.block.index as nat)))
      && (v.IntegerConstant? ==> r == Ok(Decimal(v.integer as nat)))
      && (v.BooleanConstant? ==> r == Ok(if v.boolean then "true" else "false"))
      && (v.FloatConstant? ==> r == Ok(fmt(v.float)))
      && (v.DoubleConstant? ==> r == Ok(fmt(v.double)))
      && (v.StringConstant? ==> r == Ok("\"" + v.text + "\""))
      && (v.CharConstant? ==> r == Ok("'" + v.character + "'"))
  {
  }

  /** A literal the builder appends renders as C text of its payload:
      decimal integers, `true`/`false`, strings in double quotes. */
  lemma LiteralsRender(fmt: F64 -> string, b: InstBlock, n: u64, x: bool, t: string, fuel: nat)
    requires |b.values| < U32_MODULUS && 0 < fuel
    ensures var (b1, h1) := IconstInt(b, n); DisplayValue(fmt, h1, b1.values, fuel) == Ok(Decimal(n as nat))
    ensures var (b2, h2) := IconstBool(b, x); DisplayValue(fmt, h2, b2.values, fuel) == Ok(if x then "true" else "false")
    ensures var (b3, h3) := IconstStr(b, t); DisplayValue(fmt, h3, b3.values, fuel) == Ok("\"" + t + "\"")
  {
  }

  /** A binary value built from two rendered operands renders as
      `left op right` with the opcode's C operator, with one more unit of
      budget than its operands. */
  lemma BinaryRenders(fmt: F64 -> string, b: InstBlock, op: Opcode, l: Value, r: Value, fuel: nat, left: string, right: string)
    requires IsBinaryValueOp(op) && |b.values| < U32_MODULUS
    requires DisplayValue(fmt, l, IBinary(b, op, l, r).0.values, fuel) == Ok(left)
    requires DisplayValue(fmt, r, IBinary(b, op, l, r).0.values, fuel) == Ok(right)
    ensures var (b', h) := IBinary(b, op, l, r);
      DisplayValue(fmt, h, b'.values, fuel + 1) == Ok(left + " " + InfixSymbol(op) + " " + right)
  {
  }

  /** `ibit_not` and `inot` values render as `~x` and `!x`. */
  lemma UnaryRenders(fmt: F64 -> string, b: InstBlock, op: Opcode, v: Value, fuel: nat, operand: string)
    requires IsUnaryValueOp(op) && |b.values| < U32_MODULUS
    requires DisplayValue(fmt, v, IUnary(b, op, v).0.values, fuel) == Ok(operand)
    ensures var (b', h) := IUnary(b, op, v);
      DisplayValue(fmt, h, b'.values, fuel + 1) == Ok((if op.BitNot? then "~" else "!") + operand)
  {
  }

  /** The statement `jmp` appends renders as `goto` glued to the target's
      label, with no space: `gotoblock3`. */
  lemma JmpRendersGoto(fmt: F64 -> string, b: InstBlock, target: Block)
    requires |b.values| < U32_MODULUS
    ensures DisplayStatement(fmt, Builder.Jmp(b, target), |b.insts|) == Ok("gotoblock" + Decimal(target.index as nat))
  {
    var b' := Builder.Jmp(b, target);
    var h := b'.insts[|b.insts|].arguments[0];
    assert h.index as int == |b.values|;
    var targetName := Decimal(target.index as nat);
    assert DisplayValue(fmt, h, b'.values, |b'.values|) == Ok("block" + targetName);
    assert "goto" + ("block" + targetName) == "gotoblock" + targetName;
  }

  /** The statement `return_none` appends can never be rendered: the
      emitter reads the missing operand 0. */
  lemma ReturnNoneFails(fmt: F64 -> string, b: InstBlock)
    ensures DisplayStatement(fmt, ReturnNone(b), |b.insts|) == Err(MissingOperand(Opcode.Ret, 0))
  {
    var b' := ReturnNone(b);
    NoOperandsFails(fmt, b'.insts[|b.insts|], b'.values, |b'.values|);
  }

  /** The statement `return_(v)` appends renders as `return v`. */
  lemma ReturnRenders(fmt: F64 -> string, b: InstBlock, v: Value, value: string)
    requires DisplayValue(fmt, v, b.values, |b.values|) == Ok(value)
    ensures DisplayStatement(fmt, Return(b, v), |b.insts|) == Ok("return " + value)
  {
  }

  /** The statement `set(k, v)` appends renders as `k = v`. */
  lemma SetRenders(fmt: F64 -> string, b: InstBlock, k: Value, v: Value, target: string, value: string)
    requires DisplayValue(fmt, k, b.values, |b.values|) == Ok(target)
    requires DisplayValue(fmt, v, b.values, |b.values|) == Ok(value)
    ensures DisplayStatement(fmt, Builder.Set(b, k, v), |b.insts|) == Ok(target + " = " + value)
  {
    assert DisplayStatement(fmt, Builder.Set(b, k, v), |b.insts|) == Ok(target + " " + InfixSymbol(Opcode.Set) + " " + value);
    assert target + " " + "=" + " " + value == target + " = " + value;
  }

  /** The statement `call(k, args)` appends renders as the callee, then the
      arguments in order, joined by `, `, in parentheses. */
  lemma CallRenders(fmt: F64 -> string, b: InstBlock, k: Value, args: seq<Value>, callee: string, texts: seq<string>)
    requires DisplayValue(fmt, k, b.values, |b.values|) == Ok(callee)
    requires |texts| == |args|
    requires forall i :: 0 <= i < |args| ==> DisplayValue(fmt, args[i], b.values, |b.values|) == Ok(texts[i])
    ensures DisplayStatement(fmt, Builder.Call(b, k, args), |b.insts|) == Ok(callee + "(" + Join(texts, ", ") + ")")
  {
    var b' := Builder.Call(b, k, args);
    var inst := b'.insts[|b.insts|];
    var ts := [callee] + texts;
    assert inst.arguments == [k] + args;
    forall i | 0 <= i < |ts|
      ensures DisplayValue(fmt, inst.arguments[i], b'.values, |b'.values|) == Ok(ts[i])
    {
      if 0 < i {
        assert inst.arguments[i] == args[i - 1];
      }
    }
    DisplayInstructionTexts(fmt, inst, b'.values, |b'.values|, ts);
    assert ts[1..] == texts;
  }

  /** A field or pointer accessor: neither `Static` nor `Index`. */
  predicate PlainAccessor(p: NamedProperty) {
    p.BasicProp? || p.PointerProp?
  }

  /** `.f` for a field, `->f` through a pointer. */
  function AccessorText(p: NamedProperty): string
    requires PlainAccessor(p)
  {
    if p.BasicProp? then "." + p.field else "->" + p.target
  }

  /** The C text of a field or pointer accessor chain: `.f` for a field,
      `->f` through a pointer, left to right. */
  function AccessorPath(props: seq<NamedProperty>): string
    requires forall k :: 0 <= k < |props| ==> PlainAccessor(props[k])
  {
    if props == [] then ""
    else AccessorPath(props[..|props| - 1]) + AccessorText(props[|props| - 1])
  }

  lemma {:induction false} AccessorPathCons(p: NamedProperty, rest: seq<NamedProperty>)
    requires PlainAccessor(p) && forall k :: 0 <= k < |rest| ==> PlainAccessor(rest[k])
    ensures forall k :: 0 <= k < |[p] + rest| ==> PlainAccessor(([p] + rest)[k])
    ensures AccessorPath([p] + rest) == AccessorPath([p]) + AccessorPath(rest)
    decreases |rest|
  {
    var all := [p] + rest;
    assert forall k :: 0 <= k < |all| ==> PlainAccessor(all[k]) by {
      forall k | 0 <= k < |all|
        ensures PlainAccessor(all[k])
      {
        if 0 < k {
          assert all[k] == rest[k - 1];
        }
      }
    }
    if rest != [] {
      var init := rest[..|rest| - 1];
      var last := rest[|rest| - 1];
      AccessorPathCons(p, init);
      assert all[..|all| - 1] == [p] + init;
      assert all[|all| - 1] == last;
    }
  }

  lemma {:induction false} PropertiesPlain(fmt: F64 -> string, named: Named, from: nat, values: seq<ValueInfo>, fuel: nat)
    requires from <= |named.properties|
    requires forall k :: 0 <= k < |named.properties| ==> PlainAccessor(named.properties[k])
    ensures PropertiesText(fmt, named, from, values, fuel) == Ok(AccessorPath(named.properties[from..]))
    decreases |named.properties| - from
  {
    var props := named.properties;
    if from < |props| {
      PropertiesPlain(fmt, named, from + 1, values, fuel);
      assert props[from..] == [props[from]] + props[from + 1..];
      AccessorPathCons(props[from], props[from + 1..]);
      var p := props[from];
      assert [p][..0] == [];
      assert AccessorPath([p]) == "" + AccessorText(p) == AccessorText(p);
      assert PropertyText(fmt, named, p, values, fuel) == Ok(AccessorText(p));
      var rest := PropertiesText(fmt, named, from + 1, values, fuel);
      assert PropertiesText(fmt, named, from, values, fuel) == Ok(AccessorText(p) + rest.value);
    }
  }

  /** A reference with only field and pointer accessors renders as its
      root name followed by the accessor path. */
  lemma DisplayNamedPlain(fmt: F64 -> string, named: Named, values: seq<ValueInfo>, fuel: nat)
    requires forall k :: 0 <= k < |named.properties| ==> PlainAccessor(named.properties[k])
    ensures DisplayNamed(fmt, named, values, fuel) == Ok(named.name + AccessorPath(named.properties))
  {
    PropertiesPlain(fmt, named, 0, values, fuel);
    assert named.properties[0..] == named.properties;
  }

  /** The text of one accessor other than `Static`, given the text its
      operand renders to when it is an `Index`: `.f`, `->f` or `[t]`. */
  function IndexedAccessorText(p: NamedProperty, t: string): string
    requires !p.StaticProp?
  {
    if p.IndexProp? then "[" + t + "]" else AccessorText(p)
  }

  /** The C text of an accessor chain without `Static`, given the text each
      `Index` operand renders to (`texts[k]` for accessor `k`), left to right. */
  function IndexedPath(props: seq<NamedProperty>, texts: seq<string>): string
    requires |texts| == |props|
    requires forall k :: 0 <= k < |props| ==> !props[k].StaticProp?
  {
    if props == [] then ""
    else IndexedAccessorText(props[0], texts[0]) + IndexedPath(props[1..], texts[1..])
  }

  /** The `Index` operands of `named` render as `texts`, position by position. */
  predicate IndexesRenderAs(fmt: F64 -> string, named: Named, values: seq<ValueInfo>, fuel: nat, texts: seq<string>) {
    && |texts| == |named.properties|
    && forall k :: 0 <= k < |named.properties| && named.properties[k].IndexProp? ==>
         DisplayValue(fmt, named.properties[k].index, values, fuel) == Ok(texts[k])
  }

  /** A chain without `Static` whose `Index` operands render as `texts`
      renders as its indexed path from any position on. */
  lemma {:induction false} PropertiesIndexed(fmt: F64 -> string, named: Named, from: nat, values: seq<ValueInfo>, fuel: nat, texts: seq<string>)
    requires from <= |named.properties|
    requires forall k :: 0 <= k < |named.properties| ==> !named.properties[k].StaticProp?
    requires IndexesRenderAs(fmt, named, values, fuel, texts)
    ensures PropertiesText(fmt, named, from, values, fuel) == Ok(IndexedPath(named.properties[from..], texts[from..]))
    decreases |named.properties| - from
  {
    var props := named.properties;
    if from < |props| {
      PropertiesIndexed(fmt, named, from + 1, values, fuel, texts);
      assert props[from..][1..] == props[from + 1..];
      assert texts[from..][1..] == texts[from + 1..];
      assert PropertyText(fmt, named, props[from], values, fuel) == Ok(IndexedAccessorText(props[from], texts[from]));
    }
  }

  /** A reference without `Static` whose `Index` operands render as `texts`
      renders as its root name followed by its indexed path. */
  lemma DisplayNamedIndexed(fmt: F64 -> string, named: Named, values: seq<ValueInfo>, fuel: nat, texts: seq<string>)
    requires forall k :: 0 <= k < |named.properties| ==> !named.properties[k].StaticProp?
    requires IndexesRenderAs(fmt, named, values, fuel, texts)
    ensures DisplayNamed(fmt, named, values, fuel) == Ok(named.name + IndexedPath(named.properties, texts))
  {
    PropertiesIndexed(fmt, named, 0, values, fuel, texts);
    assert named.properties[0..] == named.properties;
    assert texts[0..] == texts;
  }

  /** Whether accessor `k` of `named` fails on its own: it is `Static`, or
      it is an `Index` whose operand does not render. */
  predicate AccessorFails(fmt: F64 -> string, named: Named, k: nat, values: seq<ValueInfo>, fuel: nat)
    requires k < |named.properties|
  {
    named.properties[k].StaticProp?
    || (named.properties[k].IndexProp? && DisplayValue(fmt, named.properties[k].index, values, fuel).Err?)
  }

  /** A reference whose first failing accessor is `Static` fails as a whole
      with `UnsupportedConstruct`, never with partial text. */
  lemma DisplayNamedStatic(fmt: F64 -> string, named: Named, values: seq<ValueInfo>, fuel: nat, s: nat)
    requires s < |named.properties| && named.properties[s].StaticProp?
    requires forall k :: 0 <= k < s ==> !AccessorFails(fmt, named, k, values, fuel)
    ensures DisplayNamed(fmt, named, values, fuel) == Err(UnsupportedConstruct(named))
  {
    StaticFirstFails(fmt, named, 0, values, fuel, s);
  }

  /** From any position up to a `Static` accessor `s` with no failing
      accessor in between, the rest of the chain fails with
      `UnsupportedConstruct`. */
  lemma {:induction false} StaticFirstFails(fmt: F64 -> string, named: Named, from: nat, values: seq<ValueInfo>, fuel: nat, s: nat)
    requires from <= s < |named.properties| && named.properties[s].StaticProp?
    requires forall k :: from <= k < s ==> !AccessorFails(fmt, named, k, values, fuel)
    ensures PropertiesText(fmt, named, from, values, fuel) == Err(UnsupportedConstruct(named))
    decreases s - from
  {
    if from < s {
      assert !AccessorFails(fmt, named, from, values, fuel);
      StaticFirstFails(fmt, named, from + 1, values, fuel, s);
    }
  }

  /** A reference whose first failing accessor is an `Index` fails with the
      error of that index's operand: accessors are rendered left to right
      and the first failure ends the reference. */
  lemma DisplayNamedIndexFails(fmt: F64 -> string, named: Named, values: seq<ValueInfo>, fuel: nat, s: nat)
    requires s < |named.properties| && named.properties[s].IndexProp?
    requires DisplayValue(fmt, named.properties[s].index, values, fuel).Err?
    requires forall k :: 0 <= k < s ==> !AccessorFails(fmt, named, k, values, fuel)
    ensures DisplayNamed(fmt, named, values, fuel) == Err(DisplayValue(fmt, named.properties[s].index, values, fuel).error)
  {
    IndexFirstFails(fmt, named, 0, values, fuel, s);
  }

  /** From any position up to a failing `Index` accessor `s` with no failing
      accessor in between, the rest of the chain fails with that operand's error. */
  lemma {:induction false} IndexFirstFails(fmt: F64 -> string, named: Named, from: nat, values: seq<ValueInfo>, fuel: nat, s: nat)
    requires from <= s < |named.properties| && named.properties[s].IndexProp?
    requires DisplayValue(fmt, named.properties[s].index, values, fuel).Err?
    requires forall k :: from <= k < s ==> !AccessorFails(fmt, named, k, values, fuel)
    ensures PropertiesText(fmt, named, from, values, fuel) == Err(DisplayValue(fmt, named.properties[s].index, values, fuel).error)
    decreases s - from
  {
    if from < s {
      assert !AccessorFails(fmt, named, from, values, fuel);
      IndexFirstFails(fmt, named, from + 1, values, fuel, s);
    }
  }

  /** `Array(-1)` prints its size and a non-negative size prints none: the
      shape table is the reverse of what the type's documentation states. */
  lemma ArrayBracketsReversed(name: string, n: isize)
    ensures DisplayAbiType(AbiType(name, Array(-1))) == name + "[-1]"
    ensures 0 <= n ==> DisplayAbiType(AbiType(name, Array(n))) == name + "[]"
  {
    assert SignedDecimal(-1) == "-" + Decimal(1) == "-1";
  }

  /** Two array types of the same element name print alike exactly when
      both sizes are non-negative (all print `[]`) or the sizes are equal. */
  lemma ArraySizesCollide(name: string, n: isize, m: isize)
    ensures DisplayAbiType(AbiType(name, Array(n))) == DisplayAbiType(AbiType(name, Array(m))) <==>
      (n == m || (n > -1 && m > -1))
  {
    var sn, sm := DisplayAbiType(AbiType(name, Array(n))), DisplayAbiType(AbiType(name, Array(m)));
    if sn == sm && n <= -1 && m <= -1 {
      var dn, dm := SignedDecimal(n as int), SignedDecimal(m as int);
      assert sn == name + "[" + dn + "]" && sm == name + "[" + dm + "]";
      assert dn == sn[|name| + 1..|sn| - 1];
      assert dm == sm[|name| + 1..|sm| - 1];
      SignedDecimalInjective(n as int, m as int);
    }
  }

  /** A second `emit` on the backend the first one returns succeeds again
      and lists every include the module requires a second time. */
  lemma EmitTwiceRepeatsIncludes(be: CBackend, fnOrder: seq<string>, varOrders: map<string, seq<string>>)
    requires ValidOrders(be.ir, fnOrder, varOrders)
    requires Emit(be, fnOrder, varOrders).Ok?
    ensures var be1 := Emit(be, fnOrder, varOrders).value.0;
      && ValidOrders(be1.ir, fnOrder, varOrders)
      && Emit(be1, fnOrder, varOrders).Ok?
      && Emit(be1, fnOrder, varOrders).value.0.imports ==
         be.imports + ModuleImports(be.ir, fnOrder) + ModuleImports(be.ir, fnOrder)
  {
    var be1 := Emit(be, fnOrder, varOrders).value.0;
    assert be1.ir == be.ir && be1.floatText == be.floatText;
    assert be1.imports == be.imports + ModuleImports(be.ir, fnOrder);
    SameCompilation(be, be1, fnOrder, varOrders);
    var second := Emit(be1, fnOrder, varOrders);
    assert second.Ok?;
    assert second.value.0.imports == be1.imports + ModuleImports(be1.ir, fnOrder);
  }

  /** Whether the functions compile depends only on the module and the float rendering. */
  lemma SameCompilation(be: CBackend, be': CBackend, fnOrder: seq<string>, varOrders: map<string, seq<string>>)
    requires be.ir == be'.ir && be.floatText == be'.floatText
    requires OrdersCover(be.ir, fnOrder, varOrders)
    ensures OrdersCover(be'.ir, fnOrder, varOrders)
    ensures AllCompile(be, fnOrder, varOrders) <==> AllCompile(be', fnOrder, varOrders)
  {
    assert forall i :: 0 <= i < |fnOrder| ==> CompileNth(be, fnOrder, varOrders, i) == CompileNth(be', fnOrder, varOrders, i);
  }

  /** A prototype with two parameters: each parameter as its type, a space
      and its name, separated by `, `, in signature order. */
  lemma HeaderTwoParams(f: Function, p: AbiParam, q: AbiParam)
    requires f.signature.arguments == [p, q]
    ensures Header(f) == DisplayAbiType(f.signature.returnType) + " " + f.name + "("
      + DisplayAbiType(p.ty) + " " + p.name + ", " + DisplayAbiType(q.ty) + " " + q.name + ")"
  {
    var params := seq(|f.signature.arguments|, i requires 0 <= i < |f.signature.arguments| => ParamText(f.signature.arguments[i]));
    assert params == [ParamText(p), ParamText(q)];
    JoinPair(ParamText(p), ParamText(q), ", ");
  }

  /** A function only declared in a module compiles to the bare prototype
      `void <name>()` and requires no include. */
  lemma DeclaredFunctionIsPrototype(fmt: F64 -> string, m: Module, name: string)
    ensures CompileFunction(fmt, DeclareFunction(m, name).functions[name], []) == Ok(("void " + name + "()", []))
  {
    var f := DeclareFunction(m, name).functions[name];
    assert f.signature.arguments == [];
    assert f.variables.Keys == {};
    assert Enumerates([], f.variables.Keys);
    var params := seq(|f.signature.arguments|, i requires 0 <= i < |f.signature.arguments| => ParamText(f.signature.arguments[i]));
    assert params == [];
    assert DisplayAbiType(f.signature.returnType) == "void";
    assert Header(f) == "void" + " " + name + "(" + "" + ")";
    assert "void" + " " + name + "(" + "" + ")" == "void " + name + "()";
  }

  /** A function with one block whose statements all render compiles to
      its header, body opening, declarations, the single labelled block and
      `}`, and requires exactly that block's imports. */
  lemma CompileOneBlock(fmt: F64 -> string, f: Function, varOrder: seq<string>, stmts: seq<string>)
    requires Enumerates(varOrder, f.variables.Keys)
    requires |f.blocks| == 1 && |stmts| == |f.blocks[0].insts|
    requires forall j :: 0 <= j < |stmts| ==> DisplayStatement(fmt, f.blocks[0], j) == Ok(stmts[j])
    ensures CompileFunction(fmt, f, varOrder) ==
      Ok((Header(f) + (" {\n" + VarSection(VarDecls(f, varOrder)) + BlockText(0, stmts) + "}"), f.blocks[0].imports))
  {
    var block := f.blocks[0];
    assert StatementsRender(fmt, block, 0);
    assert AllStatementsRender(fmt, f.blocks, 0);
    assert BlockStatements(fmt, block) == stmts;
    assert LabelledBlocks(fmt, f.blocks) == [BlockText(0, stmts)];
    assert Join([BlockText(0, stmts)], "\n") == BlockText(0, stmts);
    var parts := seq(|f.blocks|, i requires 0 <= i < |f.blocks| => f.blocks[i].imports);
    assert parts == [block.imports];
    FlattenSingleton(block.imports);
  }

  /** Emitting a module of one function succeeds exactly when that function
      compiles, and then gives the accumulated include lines, a newline, and
      that function's text. */
  lemma EmitOneFunction(be: CBackend, name: string, varOrder: seq<string>)
    requires be.ir.functions.Keys == {name}
    requires Enumerates(varOrder, be.ir.functions[name].variables.Keys)
    ensures ValidOrders(be.ir, [name], map[name := varOrder])
    ensures var c := CompileFunction(be.floatText, be.ir.functions[name], varOrder);
      && (Emit(be, [name], map[name := varOrder]).Ok? <==> c.Ok?)
      && (c.Ok? ==>
            Emit(be, [name], map[name := varOrder]) ==
            Ok((be.(imports := be.imports + c.value.1), Join(IncludeLines(be.imports + c.value.1), "\n") + "\n" + c.value.0)))
  {
    var fnOrder, varOrders := [name], map[name := varOrder];
    assert ValidOrders(be.ir, fnOrder, varOrders);
    ValidOrdersCover(be.ir, fnOrder, varOrders);
    var c := CompileFunction(be.floatText, be.ir.functions[name], varOrder);
    assert CompileNth(be, fnOrder, varOrders, 0) == c;
    assert AllCompile(be, fnOrder, varOrders) <==> c.Ok?;
    if c.Ok? {
      var parts := seq(|fnOrder|, i requires 0 <= i < |fnOrder| => BlockImports(be.ir.functions[fnOrder[i]].blocks));
      assert parts == [BlockImports(be.ir.functions[name].blocks)];
      FlattenSingleton(BlockImports(be.ir.functions[name].blocks));
      assert ModuleImports(be.ir, fnOrder) == c.value.1;
      assert FunctionTexts(be, fnOrder, varOrders) == [c.value.0];
      assert Join([c.value.0], "\n") == c.value.0;
    }
  }
}

=== FILE: entities.dfy ===
/** Entities of the Cardinal code generator: index handles for values and
    blocks, name handles for variables, named references with accessor chains,
    and ABI type descriptors (codegen/src/entities.rs). */
module Entities {

  /** Rust's `u32`, the width of value and block handles. */
  newtype u32 = x: int | 0 <= x < 0x1_0000_0000

  /** Rust's `u64`, the payload of an integer constant. */
  newtype u64 = x: int | 0 <= x < 0x1_0000_0000_0000_0000

  /** Rust's `isize` on a 64-bit target, the size of an array type. */
  newtype isize = x: int | -0x8000_0000_0000_0000 <= x < 0x8000_0000_0000_0000

  const U32_MODULUS: int := 0x1_0000_0000

  /** `len as u32`: the truncating cast the source applies to a table length
      when it issues a handle. */
  function TruncateU32(n: nat): (r: u32)
    ensures n < U32_MODULUS ==> r as int == n
    ensures r as int <= n
  {
    (n % U32_MODULUS) as u32
  }

  /** An opaque reference to a value, meaningful only in the block that issued it. */
  datatype Value = Value(index: u32)

  /** An opaque reference to a block, meaningful only in the function (or
      enclosing block) that issued it. */
  datatype Block = Block(index: u32)

  /** The derived `PartialEq` of `Value`: equal exactly when the wrapped indices are. */
  function SameValue(a: Value, b: Value): (r: bool)
    ensures r <==> a.index == b.index
  {
    a == b
  }

  /** The derived `PartialEq` of `Block`: equal exactly when the wrapped indices are. */
  function SameBlock(a: Block, b: Block): (r: bool)
    ensures r <==> a.index == b.index
  {
    a == b
  }

  /** A function-local variable, referred to by name. */
  datatype Variable = Variable(name: string) {

    /** The variable as a named reference with no accessors. */
    function ToNamed(): (n: Named)
      ensures n.name == name && n.properties == []
    {
      NewNamed(name)
    }
  }

  /** A module-level variable, referred to by name. */
  datatype GlobalVariable = GlobalVariable(name: string) {

    /** The global as a named reference with no accessors. */
    function ToNamed(): (n: Named)
      ensures n.name == name && n.properties == []
    {
      NewNamed(name)
    }
  }

  /** The shape of an ABI type. `Array` carries the declared size; the
      source documents `-1` as the "size left implicit" marker. */
  datatype Type = Plain | Array(size: isize) | Pointer

  /** An ABI type: a type name (printed verbatim) and a shape. */
  datatype AbiType = AbiType(name: string, shape: Type)

  /** A named, typed function parameter. */
  datatype AbiParam = AbiParam(name: string, ty: AbiType)

  /** One accessor in a named reference: `.field`, `::member` (not supported
      by the C backend), `->field`, or `[index]` with a value operand. */
  datatype NamedProperty =
    | BasicProp(field: string)
    | StaticProp(member: string)
    | PointerProp(target: string)
    | IndexProp(index: Value)

  /** A root name followed by accessors applied left to right. */
  datatype Named = Named(name: string, properties: seq<NamedProperty>)

  /** `Named::new`: the root name alone. */
  function NewNamed(name: string): (n: Named)
    ensures n.name == name
    ensures n.properties == []
  {
    Named(name, [])
  }

  /** `Named::new_props`: the root name with the given accessors, kept in order. */
  function NewNamedProps(name: string, properties: seq<NamedProperty>): (n: Named)
    ensures n.name == name
    ensures |n.properties| == |properties|
    ensures forall i :: 0 <= i < |properties| ==> n.properties[i] == properties[i]
  {
    Named(name, properties)
  }

  /** A 64-bit float, kept as its bit pattern; its text is supplied to the
      emitter from outside. */
  datatype F64 = F64(bits: bv64)
}

=== FILE: function.dfy ===
/** Functions (codegen/src/function.rs): a signature, a map of declared
    variables and an ordered list of blocks that are built one at a time. */
module Functions {
  import opened Wrappers
  import opened Entities
  import opened Instructions

  /** Ordered parameters and a return type. */
  datatype FunctionSignature = FunctionSignature(arguments: seq<AbiParam>, returnType: AbiType)

  /** `FunctionSignature::new`: no parameters, returning plain `void`. */
  function NewSignature(): (s: FunctionSignature)
    ensures s.arguments == []
    ensures s.returnType.name == "void" && s.returnType.shape == Plain
  {
    FunctionSignature([], AbiType("void", Plain))
  }

  /** A function. The variable map is a Rust `HashMap`: its iteration order
      is not part of the model (the emitter takes it as a parameter). */
  datatype Function = Function(
    variables: map<string, AbiType>,
    blocks: seq<InstBlock>,
    name: string,
    signature: FunctionSignature)

  /** `Function::new`: the given name and signature, no variables, no blocks. */
  function NewFunction(name: string, sig: FunctionSignature): (f: Function)
    ensures f.name == name && f.signature == sig
    ensures f.variables == map[] && f.blocks == []
  {
    Function(map[], [], name, sig)
  }

  /** `declare_var`: maps `name` to `varType`, replacing an earlier type for
      `name`, and returns the variable handle for `name`. */
  function DeclareVar(f: Function, name: string, varType: AbiType): (r: (Function, Variable))
    ensures r.1.name == name
    ensures name in r.0.variables && r.0.variables[name] == varType
    ensures r.0.variables.Keys == f.variables.Keys + {name}
    ensures forall n :: n in f.variables && n != name ==> r.0.variables[n] == f.variables[n]
    ensures r.0.blocks == f.blocks && r.0.name == f.name && r.0.signature == f.signature
  {
    (f.(variables := f.variables[name := varType]), Variable(name))
  }

  /** The block `create_block` appends: a `Basic` block with every list empty. */
  function EmptyBlock(): (b: InstBlock)
    ensures b.blockType == Basic && b.elseBlock == None
    ensures b.values == [] && b.insts == [] && b.imports == []
    ensures b.blocks == [] && b.elses == []
  {
    InstBlock(Basic, [], None, [], [], [], [])
  }

  /** `create_block`: appends an empty block and returns its handle. */
  function CreateBlock(f: Function): (r: (Function, Block))
    ensures |f.blocks| < U32_MODULUS ==> r.1.index as int == |f.blocks|
    ensures |r.0.blocks| == |f.blocks| + 1
    ensures r.0.blocks[..|f.blocks|] == f.blocks
    ensures r.0.blocks[|f.blocks|] == EmptyBlock()
    ensures r.0.variables == f.variables && r.0.name == f.name && r.0.signature == f.signature
  {
    (f.(blocks := f.blocks + [EmptyBlock()]), Block(TruncateU32(|f.blocks|)))
  }

  /** `use_block`: the block a handle names, or `InvalidBlock` where the
      source's `unwrap` panics. */
  function UseBlock(f: Function, blk: Block): (r: Result<InstBlock, Error>)
    ensures r.Ok? <==> (blk.index as int) < |f.blocks|
    ensures r.Ok? ==> r.value == f.blocks[blk.index]
    ensures r.Err? ==> r.error == InvalidBlock(blk)
  {
    if (blk.index as int) < |f.blocks| then Ok(f.blocks[blk.index]) else Err(InvalidBlock(blk))
  }

  /** Writing back a block changed through the `&mut` borrow `use_block` hands out. */
  function UpdateBlock(f: Function, blk: Block, nb: InstBlock): (r: Result<Function, Error>)
    ensures r.Ok? <==> (blk.index as int) < |f.blocks|
    ensures r.Ok? ==> |r.value.blocks| == |f.blocks| && r.value.blocks[blk.index] == nb
    ensures r.Ok? ==> forall i :: 0 <= i < |f.blocks| && i != blk.index as int ==> r.value.blocks[i] == f.blocks[i]
    ensures r.Ok? ==> r.value.variables == f.variables && r.value.name == f.name && r.value.signature == f.signature
    ensures r.Err? ==> r.error == InvalidBlock(blk)
  {
    if (blk.index as int) < |f.blocks| then Ok(f.(blocks := f.blocks[blk.index as int := nb]))
    else Err(InvalidBlock(blk))
  }

  /** A block just created is found, empty, under the handle `create_block` returned. */
  lemma CreateThenUse(f: Function)
    requires |f.blocks| < U32_MODULUS
    ensures var (f', h) := CreateBlock(f); UseBlock(f', h) == Ok(EmptyBlock())
  {
  }

  /** Borrowing a block and writing it back unchanged leaves the function as it was;
      writing back a changed block is what the next borrow sees. */
  lemma UseUpdateRoundTrip(f: Function, blk: Block, nb: InstBlock)
    requires (blk.index as int) < |f.blocks|
    ensures UpdateBlock(f, blk, UseBlock(f, blk).value) == Ok(f)
    ensures UseBlock(UpdateBlock(f, blk, nb).value, blk) == Ok(nb)
  {
    var i := blk.index as int;
    assert f.blocks[i := f.blocks[i]] == f.blocks;
  }
}

=== FILE: instbuilder.dfy ===
/** The instruction builder (codegen/src/instbuilder.rs): one operation per
    literal kind, opcode and C type, each a thin wrapper that appends a value,
    a statement, or both, to the block being built. A builder call on
    `&mut self` becomes a function from the block before to the block after,
    paired with the handle the call returns. */
module Builder {
  import opened Wrappers
  import opened Text
  import opened Entities
  import opened Instructions

  /** `iconst_int`: a new integer constant. */
  function IconstInt(b: InstBlock, value: u64): (r: (InstBlock, Value))
    ensures ValueAppended(b, r.0, IntegerConstant(value)) && Issued(b, r.1)
  {
    CreateValue(b, IntegerConstant(value))
  }

  /** `iconst_float`: a new float constant. */
  function IconstFloat(b: InstBlock, value: F64): (r: (InstBlock, Value))
    ensures ValueAppended(b, r.0, FloatConstant(value)) && Issued(b, r.1)
  {
    CreateValue(b, FloatConstant(value))
  }

  /** `iconst_double`: a new double constant. */
  function IconstDouble(b: InstBlock, value: F64): (r: (InstBlock, Value))
    ensures ValueAppended(b, r.0, DoubleConstant(value)) && Issued(b, r.1)
  {
    CreateValue(b, DoubleConstant(value))
  }

  /** `iconst_bool`: a new boolean constant. */
  function IconstBool(b: InstBlock, value: bool): (r: (InstBlock, Value))
    ensures ValueAppended(b, r.0, BooleanConstant(value)) && Issued(b, r.1)
  {
    CreateValue(b, BooleanConstant(value))
  }

  /** `iconst_str`: a new string constant. */
  function IconstStr(b: InstBlock, value: string): (r: (InstBlock, Value))
    ensures ValueAppended(b, r.0, StringConstant(value)) && Issued(b, r.1)
  {
    CreateValue(b, StringConstant(value))
  }

  /** `iconst_named`: a new reference to `name` with no accessors. */
  function IconstNamed(b: InstBlock, name: string): (r: (InstBlock, Value))
    ensures ValueAppended(b, r.0, NamedValue(Named(name, []))) && Issued(b, r.1)
  {
    CreateValue(b, NamedValue(NewNamed(name)))
  }

  /** `iconst_named_props`: a new reference to `name` with the given accessors, in order. */
  function IconstNamedProps(b: InstBlock, name: string, props: seq<NamedProperty>): (r: (InstBlock, Value))
    ensures ValueAppended(b, r.0, NamedValue(Named(name, props))) && Issued(b, r.1)
  {
    CreateValue(b, NamedValue(NewNamedProps(name, props)))
  }

  /** `iuse`: a named reference used as a value. */
  function Iuse(b: InstBlock, named: Named): (r: (InstBlock, Value))
    ensures ValueAppended(b, r.0, NamedValue(named)) && Issued(b, r.1)
  {
    CreateValue(b, NamedValue(named))
  }

  /** `iconst_named_property`: a `.name` accessor; reads nothing and changes no block. */
  function IconstNamedProperty(name: string): (p: NamedProperty)
    ensures p.BasicProp? && p.field == name
  {
    BasicProp(name)
  }

  /** `iconst_named_static`: a `::name` accessor; reads nothing and changes no block. */
  function IconstNamedStatic(name: string): (p: NamedProperty)
    ensures p.StaticProp? && p.member == name
  {
    StaticProp(name)
  }

  /** `iconst_named_pointer`: a `->name` accessor; reads nothing and changes no block. */
  function IconstNamedPointer(name: string): (p: NamedProperty)
    ensures p.PointerProp? && p.target == name
  {
    PointerProp(name)
  }

  /** `iconst_named_index`: a `[v]` accessor; reads nothing and changes no block. */
  function IconstNamedIndex(v: Value): (p: NamedProperty)
    ensures p.IndexProp? && p.index == v
  {
    IndexProp(v)
  }

  /** The C types the builder offers (`ctype_*`). */
  datatype CType =
    | CBool | CUint8 | CUint16 | CUint32 | CUint64 | CUsize
    | CInt8 | CInt16 | CInt32 | CInt64 | CIsize | CChar

  /** The type name each `ctype_*` produces. `ctype_int16` yields `uint16_t`. */
  function CTypeName(t: CType): string {
    match t
    case CBool => "bool"
    case CUint8 => "uint8_t"
    case CUint16 => "uint16_t"
    case CUint32 => "uint32_t"
    case CUint64 => "uint64_t"
    case CUsize => "uintptr"
    case CInt8 => "int8_t"
    case CInt16 => "uint16_t"
    case CInt32 => "int32_t"
    case CInt64 => "int64_t"
    case CIsize => "intptr"
    case CChar => "char"
  }

  /** The header each `ctype_*` requires, if any. */
  function CTypeHeader(t: CType): Option<string> {
    match t
    case CBool => Some("stdbool.h")
    case CChar => None
    case _ => Some("stdint.h")
  }

  /** `ctype_*`: a plain ABI type named by the table, after requiring its header. */
  function Ctype(b: InstBlock, t: CType): (r: (InstBlock, AbiType))
    ensures r.1.shape == Plain && r.1.name == CTypeName(t)
    ensures t == CChar ==> r.0 == b
    ensures t == CBool ==> r.0 == RequireImport(b, "stdbool.h")
    ensures t != CChar && t != CBool ==> r.0 == RequireImport(b, "stdint.h")
    ensures r.0.values == b.values && r.0.insts == b.insts
  {
    var b' := match CTypeHeader(t)
      case Some(h) => RequireImport(b, h)
      case None => b;
    (b', AbiType(CTypeName(t), Plain))
  }

  /** Asking for the same C type twice requires its header once. */
  lemma CtypeIdempotent(b: InstBlock, t: CType)
    ensures var b1 := Ctype(b, t).0; Ctype(b1, t).0 == b1
  {
  }

  /** `ctype_int16` and `ctype_uint16` produce the same, unsigned, type. */
  lemma CtypeInt16IsUnsigned(b: InstBlock)
    ensures Ctype(b, CInt16).1 == Ctype(b, CUint16).1 == AbiType("uint16_t", Plain)
  {
  }

  /** `iadd`, `isub`, ..., `ior`, `iand`: a new instruction value with the
      fixed opcode and the operands `[l, r]` in that order; no statement. */
  function IBinary(b: InstBlock, op: Opcode, l: Value, r: Value): (res: (InstBlock, Value))
    requires IsBinaryValueOp(op)
    ensures ValueAppended(b, res.0, Instruction(InstructionInfo(op, [l, r]))) && Issued(b, res.1)
  {
    CreateValue(b, Instruction(InstructionInfo(op, [l, r])))
  }

  /** `ibit_not`, `inot`: a new instruction value with exactly one operand. */
  function IUnary(b: InstBlock, op: Opcode, v: Value): (r: (InstBlock, Value))
    requires IsUnaryValueOp(op)
    ensures ValueAppended(b, r.0, Instruction(InstructionInfo(op, [v]))) && Issued(b, r.1)
  {
    CreateValue(b, Instruction(InstructionInfo(op, [v])))
  }

  /** `jmp`: a new value naming the target block, then a `Jmp` statement
      whose only operand is that new value. */
  function Jmp(b: InstBlock, target: Block): (r: InstBlock)
    ensures |r.values| == |b.values| + 1 && r.values[..|b.values|] == b.values
    ensures r.values[|b.values|] == BlockValue(target)
    ensures |r.insts| == |b.insts| + 1 && r.insts[..|b.insts|] == b.insts
    ensures r.insts[|b.insts|].opcode == Opcode.Jmp
    ensures |r.insts[|b.insts|].arguments| == 1
    ensures Issued(b, r.insts[|b.insts|].arguments[0])
    ensures r.imports == b.imports && SameShape(b, r)
  {
    var (b1, h) := CreateValue(b, BlockValue(target));
    CreateInst(b1, InstructionInfo(Opcode.Jmp, [h]))
  }

  /** `set`: an assignment statement `k = v`; no value. */
  function Set(b: InstBlock, k: Value, v: Value): (r: InstBlock)
    ensures InstAppended(b, r, InstructionInfo(Opcode.Set, [k, v]))
  {
    CreateInst(b, InstructionInfo(Opcode.Set, [k, v]))
  }

  /** `call`: a call statement whose operands are the callee then the arguments; no value. */
  function Call(b: InstBlock, k: Value, args: seq<Value>): (r: InstBlock)
    ensures InstAppended(b, r, InstructionInfo(Opcode.Call, [k] + args))
  {
    CreateInst(b, InstructionInfo(Opcode.Call, [k] + args))
  }

  /** `icall`: the same call as a value usable as an operand; no statement. */
  function Icall(b: InstBlock, k: Value, args: seq<Value>): (r: (InstBlock, Value))
    ensures ValueAppended(b, r.0, Instruction(InstructionInfo(Opcode.Call, [k] + args))) && Issued(b, r.1)
  {
    CreateValue(b, Instruction(InstructionInfo(Opcode.Call, [k] + args)))
  }

  /** `return_`: a return statement with one operand. */
  function Return(b: InstBlock, v: Value): (r: InstBlock)
    ensures InstAppended(b, r, InstructionInfo(Opcode.Ret, [v]))
  {
    CreateInst(b, InstructionInfo(Opcode.Ret, [v]))
  }

  /** `return_none`: a return statement with no operand. */
  function ReturnNone(b: InstBlock): (r: InstBlock)
    ensures InstAppended(b, r, InstructionInfo(Opcode.Ret, []))
  {
    CreateInst(b, InstructionInfo(Opcode.Ret, []))
  }

  /** One builder call, as data, so that sequences of calls can be reasoned about. */
  datatype BuildOp =
    | IconstIntOp(integer: u64)
    | IconstFloatOp(float: F64)
    | IconstDoubleOp(double: F64)
    | IconstBoolOp(boolean: bool)
    | IconstStrOp(text: string)
    | IconstNamedOp(name: string)
    | IconstNamedPropsOp(root: string, props: seq<NamedProperty>)
    | IuseOp(named: Named)
    | BinaryOp(binOp: Opcode, left: Value, right: Value)
    | UnaryOp(unOp: Opcode, operand: Value)
    | IcallOp(callee: Value, callArgs: seq<Value>)
    | JmpOp(target: Block)
    | SetOp(dest: Value, src: Value)
    | CallOp(stmtCallee: Value, stmtArgs: seq<Value>)
    | ReturnOp(result: Value)
    | ReturnNoneOp
    | RequireImportOp(header: string)
    | CtypeOp(ctype: CType)

  /** The calls that exist in the builder: binary and unary wrappers only for their opcodes. */
  predicate ValidOp(op: BuildOp) {
    match op
    case BinaryOp(o, _, _) => IsBinaryValueOp(o)
    case UnaryOp(o, _) => IsUnaryValueOp(o)
    case _ => true
  }

  /** Whether a call returns a handle. */
  predicate ReturnsValue(op: BuildOp) {
    op.IconstIntOp? || op.IconstFloatOp? || op.IconstDoubleOp? || op.IconstBoolOp? || op.IconstStrOp?
    || op.IconstNamedOp? || op.IconstNamedPropsOp? || op.IuseOp? || op.BinaryOp? || op.UnaryOp? || op.IcallOp?
  }

  /** How many value table entries a call appends: one for the value-returning calls and `jmp`. */
  function ValuesAdded(op: BuildOp): nat {
    if ReturnsValue(op) || op.JmpOp? then 1 else 0
  }

  function TotalValuesAdded(ops: seq<BuildOp>): nat
    decreases |ops|
  {
    if |ops| == 0 then 0 else ValuesAdded(ops[0]) + TotalValuesAdded(ops[1..])
  }

  /** Performs one value-returning builder call. */
  function ApplyValueOp(b: InstBlock, op: BuildOp): (r: (InstBlock, Value))
    requires ValidOp(op) && ReturnsValue(op)
    ensures |r.0.values| == |b.values| + 1
    ensures ValueAppended(b, r.0, r.0.values[|b.values|]) && Issued(b, r.1)
  {
    match op
    case IconstIntOp(i) => IconstInt(b, i)
    case IconstFloatOp(f) => IconstFloat(b, f)
    case IconstDoubleOp(d) => IconstDouble(b, d)
    case IconstBoolOp(x) => IconstBool(b, x)
    case IconstStrOp(s) => IconstStr(b, s)
    case IconstNamedOp(n) => IconstNamed(b, n)
    case IconstNamedPropsOp(n, ps) => IconstNamedProps(b, n, ps)
    case IuseOp(n) => Iuse(b, n)
    case BinaryOp(o, l, rr) => IBinary(b, o, l, rr)
    case UnaryOp(o, v) => IUnary(b, o, v)
    case IcallOp(k, args) => Icall(b, k, args)
  }

  /** Performs one builder call that returns nothing. */
  function ApplyStatementOp(b: InstBlock, op: BuildOp): (r: InstBlock)
    requires !ReturnsValue(op)
    ensures Extends(b, r)
    ensures |r.values| == |b.values| + ValuesAdded(op)
  {
    match op
    case JmpOp(t) => Jmp(b, t)
    case SetOp(k, v) => InstAppendedExtends(b, Set(b, k, v), InstructionInfo(Opcode.Set, [k, v])); Set(b, k, v)
    case CallOp(k, args) => InstAppendedExtends(b, Call(b, k, args), InstructionInfo(Opcode.Call, [k] + args)); Call(b, k, args)
    case ReturnOp(v) => InstAppendedExtends(b, Return(b, v), InstructionInfo(Opcode.Ret, [v])); Return(b, v)
    case ReturnNoneOp => InstAppendedExtends(b, ReturnNone(b), InstructionInfo(Opcode.Ret, [])); ReturnNone(b)
    case RequireImportOp(n) => RequireImport(b, n)
    case CtypeOp(t) => Ctype(b, t).0
  }

  /** Performs one builder call, returning the block after it and the handle it returned, if any. */
  function Apply(b: InstBlock, op: BuildOp): (r: (InstBlock, Option<Value>))
    requires ValidOp(op)
    ensures Extends(b, r.0)
    ensures |r.0.values| == |b.values| + ValuesAdded(op)
    ensures r.1.Some? <==> ReturnsValue(op)
    ensures r.1.Some? ==> Issued(b, r.1.value)
  {
    if ReturnsValue(op) then
      var (b', h) := ApplyValueOp(b, op);
      ValueAppendedExtends(b, b', b'.values[|b.values|]);
      (b', Some(h))
    else
      (ApplyStatementOp(b, op), None)
  }

  /** Performs a sequence of builder calls on one block, collecting the handles returned. */
  function Run(b: InstBlock, ops: seq<BuildOp>): (r: (InstBlock, seq<Value>))
    requires forall i :: 0 <= i < |ops| ==> ValidOp(ops[i])
    ensures Extends(b, r.0)
    ensures |r.0.values| == |b.values| + TotalValuesAdded(ops)
    ensures |r.0.values| <= U32_MODULUS ==>
      forall k :: 0 <= k < |r.1| ==> |b.values| <= r.1[k].index as int < |r.0.values|
    ensures |r.0.values| <= U32_MODULUS ==>
      forall j, k :: 0 <= j < k < |r.1| ==> r.1[j].index < r.1[k].index
    decreases |ops|
  {
    if |ops| == 0 then (b, [])
    else
      var (b1, h) := Apply(b, ops[0]);
      var (b2, hs) := Run(b1, ops[1..]);
      ExtendsTransitive(b, b1, b2);
      (b2, (if h.Some? then [h.value] else []) + hs)
  }

  /** A block built from empty by `n` value-returning calls (and no `jmp`)
      has exactly `n` entries, and the `k`-th call returned handle `k`. */
  lemma {:induction false} IssuedInOrder(b: InstBlock, ops: seq<BuildOp>)
    requires forall i :: 0 <= i < |ops| ==> ValidOp(ops[i])
    requires forall i :: 0 <= i < |ops| ==> !ops[i].JmpOp?
    requires |b.values| + |ops| <= U32_MODULUS
    ensures var (b', hs) := Run(b, ops);
      && |b'.values| == |b.values| + |hs|
      && forall k :: 0 <= k < |hs| ==> hs[k].index as int == |b.values| + k
    decreases |ops|
  {
    if |ops| > 0 {
      var (b1, h) := Apply(b, ops[0]);
      IssuedInOrder(b1, ops[1..]);
    }
  }

  /** The handles a call takes as operands. */
  function OperandsOf(op: BuildOp): seq<Value> {
    match op
    case BinaryOp(_, l, r) => [l, r]
    case UnaryOp(_, v) => [v]
    case IcallOp(k, args) => [k] + args
    case SetOp(k, v) => [k, v]
    case CallOp(k, args) => [k] + args
    case ReturnOp(v) => [v]
    case IconstNamedPropsOp(_, ps) => IndexOperands(ps)
    case IuseOp(n) => IndexOperands(n.properties)
    case _ => []
  }

  /** The handles named by the `Index` accessors of a chain. */
  function IndexOperands(ps: seq<NamedProperty>): (r: seq<Value>)
    ensures forall k :: 0 <= k < |ps| && ps[k].IndexProp? ==> ps[k].index in r
    decreases |ps|
  {
    if |ps| == 0 then []
    else (if ps[0].IndexProp? then [ps[0].index] else []) + IndexOperands(ps[1..])
  }

  /** A call whose operands all name existing entries keeps a block well formed:
      the builder never creates a reference cycle. */
  lemma ApplyKeepsWellFormed(b: InstBlock, op: BuildOp)
    requires ValidOp(op) && WellFormed(b)
    requires forall k :: 0 <= k < |OperandsOf(op)| ==> (OperandsOf(op)[k].index as int) < |b.values|
    ensures WellFormed(Apply(b, op).0)
  {
    var b' := Apply(b, op).0;
    if ReturnsValue(op) {
      var v := b'.values[|b.values|];
      var ops := OperandsOf(op);
      match v {
        case Instruction(inst) =>
          assert inst.arguments == ops;
        case NamedValue(n) =>
          forall k | 0 <= k < |n.properties| && n.properties[k].IndexProp?
            ensures n.properties[k].index.index as int < |b.values|
          {
            assert n.properties[k].index in ops;
          }
        case _ =>
      }
      assert HandlesBelow(v, |b.values|);
      AppendKeepsWellFormed(b, b', v);
    } else if op.JmpOp? {
      AppendKeepsWellFormed(b, b'.(insts := b.insts), BlockValue(op.target));
    }
  }
}

=== FILE: instruction.dfy ===
/** The instruction model and the block that instruction building appends to
    (codegen/src/instruction.rs), together with the value table entries of
    codegen/src/entities.rs, which embed instructions. */
module Instructions {
  import opened Wrappers
  import opened Text
  import opened Entities

  /** The closed opcode set: 24 constructors. */
  datatype Opcode =
    | Add | Sub | Mul | Div | Mod
    | BitAnd | BitOr | BitXor | BitLeft | BitRight | BitNot
    | TestEq | TestNeq | TestGt | TestGtEq | TestLt | TestLtEq
    | Not | Or | And
    | Jmp | Set | Call | Ret

  /** The opcodes the C backend renders as `left op right`. */
  predicate IsInfix(op: Opcode) {
    !(op.BitNot? || op.Not? || op.Jmp? || op.Call? || op.Ret?)
  }

  /** The two-operand opcodes the builder surfaces as values (every infix opcode but `Set`). */
  predicate IsBinaryValueOp(op: Opcode) {
    IsInfix(op) && !op.Set?
  }

  /** The one-operand opcodes the builder surfaces as values. */
  predicate IsUnaryValueOp(op: Opcode) {
    op.BitNot? || op.Not?
  }

  /** An opcode with its ordered operands. */
  datatype InstructionInfo = InstructionInfo(opcode: Opcode, arguments: seq<Value>)

  /** One entry of a block's value table. `CharConstant` is matched by the C
      backend although no builder creates it. */
  datatype ValueInfo =
    | IntegerConstant(integer: u64)
    | FloatConstant(float: F64)
    | DoubleConstant(double: F64)
    | BooleanConstant(boolean: bool)
    | StringConstant(text: string)
    | CharConstant(character: string)
    | NamedValue(named: Named)
    | BlockValue(block: Block)
    | Instruction(inst: InstructionInfo)

  datatype BlockType = If(condition: Value) | Basic

  /** A block under construction: a value table, a statement list and an
      import list, all append-only, plus the conditional structure (type,
      else-if chain, else block, nested blocks) that the emitter never reads. */
  datatype InstBlock = InstBlock(
    blockType: BlockType,
    elses: seq<InstBlock>,
    elseBlock: Option<InstBlock>,
    values: seq<ValueInfo>,
    insts: seq<InstructionInfo>,
    imports: seq<string>,
    blocks: seq<InstBlock>)

  /** Every failure the model reports where the source panics. */
  datatype Error =
    | InvalidHandle(value: Value)          // `values[i]` out of range
    | InvalidBlock(block: Block)           // `blocks.get_mut(i).unwrap()` on a missing block
    | MissingOperand(opcode: Opcode, position: nat)  // `arguments[k]` out of range
    | UnsupportedConstruct(named: Named)   // a `Static` accessor reaching the C backend
    | CyclicValue(value: Value)            // rendering re-entered a value it is already rendering

  /** The fields the value, statement and import operations never touch. */
  predicate SameShape(b: InstBlock, b': InstBlock) {
    && b'.blockType == b.blockType
    && b'.elses == b.elses
    && b'.elseBlock == b.elseBlock
    && b'.blocks == b.blocks
  }

  /** `b'` is `b` with exactly the value `v` appended to its value table. */
  predicate ValueAppended(b: InstBlock, b': InstBlock, v: ValueInfo) {
    && |b'.values| == |b.values| + 1
    && b'.values[..|b.values|] == b.values
    && b'.values[|b.values|] == v
    && b'.insts == b.insts
    && b'.imports == b.imports
    && SameShape(b, b')
  }

  /** `b'` is `b` with exactly the statement `inst` appended to its statement list. */
  predicate InstAppended(b: InstBlock, b': InstBlock, inst: InstructionInfo) {
    && |b'.insts| == |b.insts| + 1
    && b'.insts[..|b.insts|] == b.insts
    && b'.insts[|b.insts|] == inst
    && b'.values == b.values
    && b'.imports == b.imports
    && SameShape(b, b')
  }

  /** `h` is the handle issued for the next value of `b`: the table length, cast to `u32`. */
  predicate Issued(b: InstBlock, h: Value) {
    h.index == TruncateU32(|b.values|)
  }

  lemma ValueAppendedExtends(b: InstBlock, b': InstBlock, v: ValueInfo)
    requires ValueAppended(b, b', v)
    ensures Extends(b, b')
  {
  }

  lemma InstAppendedExtends(b: InstBlock, b': InstBlock, inst: InstructionInfo)
    requires InstAppended(b, b', inst)
    ensures Extends(b, b')
  {
  }

  /** `b'` grew from `b` by appending only: every table of `b` is a prefix of the one in `b'`. */
  predicate Extends(b: InstBlock, b': InstBlock) {
    && |b.values| <= |b'.values| && b'.values[..|b.values|] == b.values
    && |b.insts| <= |b'.insts| && b'.insts[..|b.insts|] == b.insts
    && |b.imports| <= |b'.imports| && b'.imports[..|b.imports|] == b.imports
    && SameShape(b, b')
  }

  lemma ExtendsTransitive(a: InstBlock, b: InstBlock, c: InstBlock)
    requires Extends(a, b) && Extends(b, c)
    ensures Extends(a, c)
  {
    assert c.values[..|a.values|] == c.values[..|b.values|][..|a.values|];
    assert c.insts[..|a.insts|] == c.insts[..|b.insts|][..|a.insts|];
    assert c.imports[..|a.imports|] == c.imports[..|b.imports|][..|a.imports|];
  }

  /** `require_import`: appends `name` unless it is already listed. */
  function RequireImport(b: InstBlock, name: string): (r: InstBlock)
    ensures name in r.imports
    ensures name in b.imports ==> r == b
    ensures name !in b.imports ==> |r.imports| == |b.imports| + 1 && r.imports[..|b.imports|] == b.imports && r.imports[|b.imports|] == name
    ensures Distinct(b.imports) ==> Distinct(r.imports)
    ensures r.values == b.values && r.insts == b.insts && SameShape(b, r)
  {
    if name in b.imports then b else b.(imports := b.imports + [name])
  }

  /** Requiring a name twice is the same as requiring it once. */
  lemma RequireImportIdempotent(b: InstBlock, name: string)
    ensures RequireImport(RequireImport(b, name), name) == RequireImport(b, name)
  {
  }

  /** `require_import` applied to each name of `names` in turn. */
  function RequireImports(b: InstBlock, names: seq<string>): InstBlock
    decreases |names|
  {
    if |names| == 0 then b else RequireImports(RequireImport(b, names[0]), names[1..])
  }

  /** After requiring any list of names, the import list holds the earlier
      imports first, in order, and then each new name once, with no duplicates. */
  lemma {:induction false} RequireImportsFirstSeen(b: InstBlock, names: seq<string>)
    requires Distinct(b.imports)
    ensures var r := RequireImports(b, names);
      && Distinct(r.imports)
      && |b.imports| <= |r.imports| && r.imports[..|b.imports|] == b.imports
      && (forall x :: x in r.imports <==> x in b.imports || x in names)
    decreases |names|
  {
    if |names| > 0 {
      var b1 := RequireImport(b, names[0]);
      RequireImportsFirstSeen(b1, names[1..]);
      var r := RequireImports(b, names);
      assert r.imports[..|b.imports|] == r.imports[..|b1.imports|][..|b.imports|];
      forall x
        ensures x in r.imports <==> x in b.imports || x in names
      {
        assert x in names <==> x == names[0] || x in names[1..];
        assert x in b1.imports <==> x in b.imports || x == names[0];
      }
    }
  }

  /** `create_value`: appends `v` to the value table and returns the handle of the new entry. */
  function CreateValue(b: InstBlock, v: ValueInfo): (r: (InstBlock, Value))
    ensures ValueAppended(b, r.0, v)
    ensures Issued(b, r.1)
    ensures |b.values| < U32_MODULUS ==> r.0.values[r.1.index] == v
  {
    (b.(values := b.values + [v]), Value(TruncateU32(|b.values|)))
  }

  /** `create_inst`: appends one statement. */
  function CreateInst(b: InstBlock, inst: InstructionInfo): (r: InstBlock)
    ensures InstAppended(b, r, inst)
  {
    b.(insts := b.insts + [inst])
  }

  /** The nested `create_block`: appends `nb` to the nested blocks and returns its handle. */
  function CreateNestedBlock(b: InstBlock, nb: InstBlock): (r: (InstBlock, Block))
    ensures |b.blocks| < U32_MODULUS ==> r.1.index as int == |b.blocks|
    ensures |r.0.blocks| == |b.blocks| + 1
    ensures r.0.blocks[..|b.blocks|] == b.blocks && r.0.blocks[|b.blocks|] == nb
    ensures r.0.values == b.values && r.0.insts == b.insts && r.0.imports == b.imports
    ensures r.0.blockType == b.blockType && r.0.elses == b.elses && r.0.elseBlock == b.elseBlock
  {
    (b.(blocks := b.blocks + [nb]), Block(TruncateU32(|b.blocks|)))
  }

  /** The nested `use_block`: the nested block a handle names, or `InvalidBlock`
      where the source's `unwrap` panics. */
  function UseNestedBlock(b: InstBlock, blk: Block): (r: Result<InstBlock, Error>)
    ensures r.Ok? <==> (blk.index as int) < |b.blocks|
    ensures r.Ok? ==> r.value == b.blocks[blk.index]
    ensures r.Err? ==> r.error == InvalidBlock(blk)
  {
    if (blk.index as int) < |b.blocks| then Ok(b.blocks[blk.index]) else Err(InvalidBlock(blk))
  }

  /** Writing back a nested block obtained through `use_block` (the `&mut` borrow). */
  function UpdateNestedBlock(b: InstBlock, blk: Block, nb: InstBlock): (r: Result<InstBlock, Error>)
    ensures r.Ok? <==> (blk.index as int) < |b.blocks|
    ensures r.Ok? ==> |r.value.blocks| == |b.blocks| && r.value.blocks[blk.index] == nb
    ensures r.Ok? ==> forall i :: 0 <= i < |b.blocks| && i != blk.index as int ==> r.value.blocks[i] == b.blocks[i]
    ensures r.Ok? ==> r.value.values == b.values && r.value.insts == b.insts && r.value.imports == b.imports
    ensures r.Ok? ==> r.value.blockType == b.blockType && r.value.elses == b.elses && r.value.elseBlock == b.elseBlock
    ensures r.Err? ==> r.error == InvalidBlock(blk)
  {
    if (blk.index as int) < |b.blocks| then Ok(b.(blocks := b.blocks[blk.index as int := nb]))
    else Err(InvalidBlock(blk))
  }

  /** A nested block just created is the one `use_block` returns for its handle. */
  lemma CreateThenUseNested(b: InstBlock, nb: InstBlock)
    requires |b.blocks| < U32_MODULUS
    ensures var (b', h) := CreateNestedBlock(b, nb); UseNestedBlock(b', h) == Ok(nb)
  {
  }

  /** Every handle the entry `v` refers to (instruction operands, `Index`
      accessors) is below `bound`. */
  predicate HandlesBelow(v: ValueInfo, bound: int) {
    match v
    case Instruction(inst) => OperandsBelow(inst, bound)
    case NamedValue(n) => IndexesBelow(n, bound)
    case _ => true
  }

  predicate OperandsBelow(inst: InstructionInfo, bound: int) {
    forall k :: 0 <= k < |inst.arguments| ==> inst.arguments[k].index as int < bound
  }

  predicate IndexesBelow(n: Named, bound: int) {
    forall k :: 0 <= k < |n.properties| && n.properties[k].IndexProp? ==> n.properties[k].index.index as int < bound
  }

  /** Each entry refers only to entries created before it, so the value
      graph has no cycles. */
  predicate WellFormed(b: InstBlock) {
    forall i :: 0 <= i < |b.values| ==> HandlesBelow(b.values[i], i)
  }

  /** Appending an entry whose handles all name existing entries keeps a block well formed. */
  lemma AppendKeepsWellFormed(b: InstBlock, b': InstBlock, v: ValueInfo)
    requires WellFormed(b) && ValueAppended(b, b', v) && HandlesBelow(v, |b.values|)
    ensures WellFormed(b')
  {
    forall i | 0 <= i < |b'.values|
      ensures HandlesBelow(b'.values[i], i)
    {
      if i < |b.values| {
        assert b'.values[i] == b'.values[..|b.values|][i];
      }
    }
  }
}

=== FILE: module.dfy ===
/** Modules (codegen/src/module.rs): name-keyed functions and global data.
    Both maps are Rust `HashMap`s; inserting under an existing name replaces
    the earlier entry. */
module Modules {
  import opened Entities
  import opened Functions

  datatype Module = Module(functions: map<string, Function>, data: map<string, AbiType>)

  /** `Module::new`: no functions, no data. */
  function NewModule(): (m: Module)
    ensures m.functions == map[] && m.data == map[]
  {
    Module(map[], map[])
  }

  /** `declare_function`: stores a block-less function with the default
      signature under `name`, replacing any function already stored there. */
  function DeclareFunction(m: Module, name: string): (r: Module)
    ensures name in r.functions
    ensures r.functions[name].name == name && r.functions[name].blocks == []
    ensures r.functions[name].variables == map[] && r.functions[name].signature == NewSignature()
    ensures r.functions.Keys == m.functions.Keys + {name}
    ensures forall n :: n in m.functions && n != name ==> r.functions[n] == m.functions[n]
    ensures r.data == m.data
  {
    m.(functions := m.functions[name := NewFunction(name, NewSignature())])
  }

  /** `define_function`: stores `f` under its own name; the last write wins. */
  function DefineFunction(m: Module, f: Function): (r: Module)
    ensures f.name in r.functions && r.functions[f.name] == f
    ensures r.functions.Keys == m.functions.Keys + {f.name}
    ensures forall n :: n in m.functions && n != f.name ==> r.functions[n] == m.functions[n]
    ensures r.data == m.data
  {
    m.(functions := m.functions[f.name := f])
  }

  /** Defining two functions of the same name keeps only the second. */
  lemma DefineFunctionLastWins(m: Module, f: Function, g: Function)
    requires f.name == g.name
    ensures DefineFunction(DefineFunction(m, f), g) == DefineFunction(m, g)
  {
  }

  /** `declare_variable`: maps `name` to `t` in the global data and returns
      the global handle for `name`. */
  function DeclareVariable(m: Module, name: string, t: AbiType): (r: (Module, GlobalVariable))
    ensures r.1.name == name
    ensures name in r.0.data && r.0.data[name] == t
    ensures r.0.data.Keys == m.data.Keys + {name}
    ensures forall n :: n in m.data && n != name ==> r.0.data[n] == m.data[n]
    ensures r.0.functions == m.functions
  {
    (m.(data := m.data[name := t]), GlobalVariable(name))
  }
}

=== FILE: scenarios.dfy ===
/** The worked example of c/tests/test.rs: a `main` function with one
    variable `my_var` and one block that assigns `21 + 21` to it and passes
    it to `printf`, emitted as C. Also the emitter's repeated-include
    behaviour on the same module. */
module Scenarios {
  import opened Wrappers
  import opened Text
  import opened Entities
  import opened Instructions
  import opened Builder
  import opened Functions
  import opened Modules
  import opened CEmitter
  import opened EmitterProperties

  /** The value table the test's builder calls produce. */
  const ExampleValues: seq<ValueInfo> := [
    IntegerConstant(21),
    IntegerConstant(21),
    Instruction(InstructionInfo(Add, [Value(0), Value(1)])),
    NamedValue(Named("my_var", [])),
    NamedValue(Named("printf", [])),
    NamedValue(Named("my_var", [])),
    StringConstant("%d")
  ]

  /** The statements the test's builder calls produce. */
  const ExampleInsts: seq<InstructionInfo> := [
    InstructionInfo(Opcode.Set, [Value(3), Value(2)]),
    InstructionInfo(Opcode.Call, [Value(4), Value(6), Value(5)])
  ]

  const ExampleBlock: InstBlock := InstBlock(Basic, [], None, ExampleValues, ExampleInsts, ["stdio.h"], [])

  /** The test's sum `21 + 21`, and its handle. */
  function BuildSum(b: InstBlock): (InstBlock, Value) {
    var (b1, t0) := IconstInt(b, 21);
    var (b2, t1) := IconstInt(b1, 21);
    IBinary(b2, Add, t0, t1)
  }

  /** The test's first group of calls: `my_var = 21 + 21`. */
  function BuildAssignment(b: InstBlock): InstBlock {
    var (b3, sum) := BuildSum(b);
    var (b4, dest) := Iuse(b3, Variable("my_var").ToNamed());
    Builder.Set(b4, dest, sum)
  }

  /** The test's second group of calls: `printf("%d", my_var)`. */
  function BuildPrintf(b: InstBlock): InstBlock {
    var (b1, callee) := Iuse(b, NewNamed("printf"));
    var (b2, arg) := Iuse(b1, Variable("my_var").ToNamed());
    var (b3, format) := IconstStr(b2, "%d");
    Builder.Call(b3, callee, [format, arg])
  }

  /** The test's calls on its one block, in order. */
  function BuildExample(b: InstBlock): InstBlock {
    BuildPrintf(BuildAssignment(RequireImport(b, "stdio.h")))
  }

  const ImportedBlock: InstBlock := InstBlock(Basic, [], None, [], [], ["stdio.h"], [])

  const AssignedBlock: InstBlock := InstBlock(Basic, [], None, ExampleValues[..4], ExampleInsts[..1], ["stdio.h"], [])

  lemma BuildsSum()
    ensures BuildSum(ImportedBlock) == (ImportedBlock.(values := ExampleValues[..3]), Value(2))
  {
    var (b1, t0) := IconstInt(ImportedBlock, 21);
    assert t0 == Value(0) && b1.values == ExampleValues[..1];
    var (b2, t1) := IconstInt(b1, 21);
    assert t1 == Value(1) && b2.values == ExampleValues[..2];
    var (b3, sum) := IBinary(b2, Add, t0, t1);
    assert sum == Value(2) && b3.values == ExampleValues[..3];
  }

  lemma BuildsAssignment()
    ensures BuildAssignment(ImportedBlock) == AssignedBlock
  {
    BuildsSum();
    var b3 := ImportedBlock.(values := ExampleValues[..3]);
    var (b4, dest) := Iuse(b3, Variable("my_var").ToNamed());
    assert dest == Value(3) && b4.values == ExampleValues[..4];
    assert b4.insts == [] && b4.imports == ["stdio.h"];
    var b5 := Builder.Set(b4, dest, Value(2));
    assert b5.insts == ExampleInsts[..1];
  }

  lemma BuildsPrintf()
    ensures BuildPrintf(AssignedBlock) == ExampleBlock
  {
    var (b1, callee) := Iuse(AssignedBlock, NewNamed("printf"));
    assert callee == Value(4) && b1.values == ExampleValues[..5];
    var (b2, arg) := Iuse(b1, Variable("my_var").ToNamed());
    assert arg == Value(5) && b2.values == ExampleValues[..6];
    var (b3, format) := IconstStr(b2, "%d");
    assert format == Value(6) && b3.values == ExampleValues;
    assert b3.insts == ExampleInsts[..1] && b3.imports == ["stdio.h"];
    var b4 := Builder.Call(b3, callee, [format, arg]);
    assert [callee] + [format, arg] == [Value(4), Value(6), Value(5)];
    assert b4.insts == ExampleInsts[..1] + [ExampleInsts[1]] == ExampleInsts;
  }

  /** The builder calls on a fresh block give the tables above, each handle
      the table length before its call. */
  lemma BuildsExampleBlock()
    ensures BuildExample(EmptyBlock()) == ExampleBlock
  {
    assert RequireImport(EmptyBlock(), "stdio.h") == ImportedBlock;
    BuildsAssignment();
    BuildsPrintf();
  }

  /** The sum in the example's table, rendered with the budget a statement gives its operands. */
  lemma ExampleSumText(fmt: F64 -> string)
    ensures DisplayValue(fmt, Value(2), ExampleValues, 7) == Ok("21 + 21")
  {
    var vs := ExampleValues;
    assert Decimal(21) == "21";
    assert DisplayValue(fmt, Value(0), vs, 6) == Ok("21");
    assert DisplayValue(fmt, Value(1), vs, 6) == Ok("21");
    assert "21" + " " + "+" + " " + "21" == "21 + 21";
  }

  /** The names and the format string render as written. */
  lemma ExampleValueTexts(fmt: F64 -> string)
    ensures DisplayValue(fmt, Value(2), ExampleValues, 7) == Ok("21 + 21")
    ensures DisplayValue(fmt, Value(3), ExampleValues, 7) == Ok("my_var")
    ensures DisplayValue(fmt, Value(4), ExampleValues, 7) == Ok("printf")
    ensures DisplayValue(fmt, Value(5), ExampleValues, 7) == Ok("my_var")
    ensures DisplayValue(fmt, Value(6), ExampleValues, 7) == Ok("\"%d\"")
  {
    var vs := ExampleValues;
    ExampleSumText(fmt);
    assert PropertiesText(fmt, Named("my_var", []), 0, vs, 6) == Ok("");
    assert "my_var" + "" == "my_var";
    assert PropertiesText(fmt, Named("printf", []), 0, vs, 6) == Ok("");
    assert "printf" + "" == "printf";
    assert "\"" + "%d" + "\"" == "\"%d\"";
  }

  /** The example's first statement renders in the assignment form of its operands. */
  lemma ExampleAssignmentForm(fmt: F64 -> string)
    ensures DisplayStatement(fmt, ExampleBlock, 0) == Ok(InstructionForm(Opcode.Set, ["my_var", "21 + 21"]))
  {
    ExampleValueTexts(fmt);
    var assign := ExampleInsts[0];
    assert assign.arguments == [Value(3), Value(2)];
    DisplayInstructionTexts(fmt, assign, ExampleValues, 7, ["my_var", "21 + 21"]);
  }

  /** The example's first statement renders as `my_var = 21 + 21`. */
  lemma ExampleAssignment(fmt: F64 -> string)
    ensures DisplayStatement(fmt, ExampleBlock, 0) == Ok("my_var = 21 + 21")
  {
    ExampleAssignmentForm(fmt);
    assert InstructionForm(Opcode.Set, ["my_var", "21 + 21"]) == "my_var" + " " + "=" + " " + "21 + 21";
    assert "my_var" + " " + "=" + " " + "21 + 21" == "my_var = 21 + 21";
  }

  /** The example's second statement renders in the call form of its operands. */
  lemma ExampleCallForm(fmt: F64 -> string)
    ensures DisplayStatement(fmt, ExampleBlock, 1) == Ok(InstructionForm(Opcode.Call, ["printf", "\"%d\"", "my_var"]))
  {
    ExampleValueTexts(fmt);
    var call := ExampleInsts[1];
    assert call.arguments == [Value(4), Value(6), Value(5)];
    DisplayInstructionTexts(fmt, call, ExampleValues, 7, ["printf", "\"%d\"", "my_var"]);
  }

  /** The example's second statement renders as `printf("%d", my_var)`. */
  lemma ExampleCall(fmt: F64 -> string)
    ensures DisplayStatement(fmt, ExampleBlock, 1) == Ok("printf(\"%d\", my_var)")
  {
    ExampleCallForm(fmt);
    var texts := ["printf", "\"%d\"", "my_var"];
    assert texts[1..] == ["\"%d\"", "my_var"];
    assert Join(["\"%d\"", "my_var"], ", ") == "\"%d\", my_var";
    assert InstructionForm(Opcode.Call, texts) == "printf" + "(" + "\"%d\", my_var" + ")";
    assert "printf" + "(" + "\"%d\", my_var" + ")" == "printf(\"%d\", my_var)";
  }

  /** The test's function: `void main()` with `my_var: int` and the block above. */
  function ExampleFunction(): Function {
    var (f0, _) := DeclareVar(NewFunction("main", NewSignature()), "my_var", AbiType("int", Plain));
    var (f1, blk) := CreateBlock(f0);
    match UpdateBlock(f1, blk, BuildExample(f1.blocks[blk.index]))
    case Ok(f2) => f2
    case Err(_) => f1
  }

  function ExampleModule(): Module {
    DefineFunction(NewModule(), ExampleFunction())
  }

  /** The text the test prints, line by line. */
  const ExampleText: string :=
    "#include <stdio.h>\n" +
    "void main() {\n" +
    "int my_var;\n" +
    "block0: {\n" +
    "my_var = 21 + 21;\n" +
    "printf(\"%d\", my_var);\n" +
    "}\n" +
    "}"

  const AssignText: string := "my_var = 21 + 21"
  const CallText: string := "printf(\"%d\", my_var)"

  /** The labelled block as the emitter assembles it. */
  const ExampleBody: string := "block" + "0" + ": {\n" + (AssignText + ";\n" + CallText) + ";\n}\n"

  /** The function text as the emitter assembles it. */
  const ExampleFunctionText: string := "void main()" + (" {\n" + ("int my_var" + ";\n") + ExampleBody + "}")

  /** The emitter's pieces spell the expected text. */
  lemma ExampleTextPieces()
    ensures "#include <stdio.h>" + "\n" + ExampleFunctionText == ExampleText
  {
    assert "#include <stdio.h>" + "\n" == "#include <stdio.h>\n";
    assert "void main()" + " {\n" == "void main() {\n";
    assert "int my_var" + ";\n" == "int my_var;\n";
    assert "block" + "0" + ": {\n" == "block0: {\n";
    assert AssignText + ";\n" == "my_var = 21 + 21;\n";
    assert CallText + ";\n}\n" == "printf(\"%d\", my_var);\n" + "}\n";
  }

  /** The function the builder calls produce, written out. */
  const ExampleShape: Function :=
    Function(map["my_var" := AbiType("int", Plain)], [ExampleBlock], "main", NewSignature())

  /** The test's function holds the declared variable and the built block. */
  lemma ExampleFunctionShape()
    ensures ExampleFunction() == ExampleShape
  {
    BuildsExampleBlock();
  }

  /** The prototype of the test's function. */
  lemma ExampleHeader()
    ensures Header(ExampleShape) == "void main()"
  {
    var f := ExampleShape;
    var params := seq(|f.signature.arguments|, i requires 0 <= i < |f.signature.arguments| => ParamText(f.signature.arguments[i]));
    assert params == [];
    assert Header(f) == "void" + " " + "main" + "(" + "" + ")";
  }

  /** A prototype with parameters: `int32_t add(int32_t a, char* s)`. */
  lemma ParamsHeader()
    ensures Header(NewFunction("add", FunctionSignature(
      [AbiParam("a", AbiType("int32_t", Plain)), AbiParam("s", AbiType("char", Pointer))],
      AbiType("int32_t", Plain)))) == "int32_t add(int32_t a, char* s)"
  {
    var f := NewFunction("add", FunctionSignature(
      [AbiParam("a", AbiType("int32_t", Plain)), AbiParam("s", AbiType("char", Pointer))],
      AbiType("int32_t", Plain)));
    HeaderTwoParams(f, f.signature.arguments[0], f.signature.arguments[1]);
    assert DisplayAbiType(AbiType("char", Pointer)) == "char*";
    assert "int32_t" + " " + "add" + "(" == "int32_t add(";
    assert "int32_t" + " " + "a" + ", " == "int32_t a, ";
    assert "char*" + " " + "s" + ")" == "char* s)";
  }

  /** The declaration section of the test's function. */
  lemma ExampleDeclarations()
    ensures Enumerates(["my_var"], ExampleShape.variables.Keys)
    ensures VarSection(VarDecls(ExampleShape, ["my_var"])) == "int my_var" + ";\n"
  {
    assert "int" + " " + "my_var" == "int my_var";
    assert VarDecls(ExampleShape, ["my_var"]) == ["int my_var"];
  }

  /** The example's block, labelled. */
  lemma ExampleLabelledBlock()
    ensures BlockText(0, [AssignText, CallText]) == ExampleBody
  {
    assert [AssignText, CallText][..1] == [AssignText];
    assert Join([AssignText, CallText], ";\n") == AssignText + ";\n" + CallText;
    assert Decimal(0) == "0";
  }

  /** `compile_function` on the test's function: the prototype, the
      declaration, the labelled block, and `stdio.h` as its one import. */
  lemma ExampleShapeCompiles(fmt: F64 -> string)
    ensures Enumerates(["my_var"], ExampleShape.variables.Keys)
    ensures CompileFunction(fmt, ExampleShape, ["my_var"]) == Ok((ExampleFunctionText, ["stdio.h"]))
  {
    ExampleAssignment(fmt);
    ExampleCall(fmt);
    ExampleDeclarations();
    CompileOneBlock(fmt, ExampleShape, ["my_var"], [AssignText, CallText]);
    ExampleLabelledBlock();
    ExampleHeader();
  }

  /** The same for the function the builder calls produce. */
  lemma ExampleCompiles(fmt: F64 -> string)
    ensures Enumerates(["my_var"], ExampleFunction().variables.Keys)
    ensures CompileFunction(fmt, ExampleFunction(), ["my_var"]) == Ok((ExampleFunctionText, ["stdio.h"]))
  {
    ExampleFunctionShape();
    ExampleShapeCompiles(fmt);
  }

  /** The include section for `stdio.h` alone. */
  lemma StdioInclude()
    ensures Join(IncludeLines(["stdio.h"]), "\n") == "#include <stdio.h>"
  {
    var line := "#include <" + "stdio.h" + ">";
    assert IncludeLines(["stdio.h"]) == [line];
    assert |line| == 18;
    assert forall k :: 0 <= k < 18 ==> line[k] == "#include <stdio.h>"[k];
  }

  /** The module the test builds, written out. */
  const ExampleModuleShape: Module := Module(map["main" := ExampleShape], map[])

  /** The test's module holds its one function under its name. */
  lemma ExampleModuleIs()
    ensures ExampleModule() == ExampleModuleShape
  {
    ExampleFunctionShape();
  }

  /** Emitting the test's module: its one include line, a newline, and the
      function's text. */
  lemma ExampleEmitsPieces(fmt: F64 -> string)
    ensures ValidOrders(ExampleModuleShape, ["main"], map["main" := ["my_var"]])
    ensures Emit(NewBackend(ExampleModuleShape, fmt), ["main"], map["main" := ["my_var"]]) ==
      Ok((CBackend(ExampleModuleShape, ["stdio.h"], fmt), Join(IncludeLines(["stdio.h"]), "\n") + "\n" + ExampleFunctionText))
  {
    var be := NewBackend(ExampleModuleShape, fmt);
    ExampleShapeCompiles(fmt);
    EmitOneFunction(be, "main", ["my_var"]);
    assert be.imports + ["stdio.h"] == ["stdio.h"];
  }

  /** Emitting the test's module gives exactly `ExampleText`. */
  lemma ExampleEmits(fmt: F64 -> string)
    ensures ValidOrders(ExampleModule(), ["main"], map["main" := ["my_var"]])
    ensures Emit(NewBackend(ExampleModule(), fmt), ["main"], map["main" := ["my_var"]]) ==
      Ok((CBackend(ExampleModule(), ["stdio.h"], fmt), ExampleText))
  {
    ExampleModuleIs();
    ExampleEmitsPieces(fmt);
    StdioInclude();
    ExampleTextPieces();
  }

  /** Emitting the test's module a second time, on the backend the first
      `emit` returned, lists `stdio.h` twice. */
  lemma ShapeEmitTwice(fmt: F64 -> string)
    ensures var be1 := CBackend(ExampleModuleShape, ["stdio.h"], fmt);
      && ValidOrders(be1.ir, ["main"], map["main" := ["my_var"]])
      && Emit(be1, ["main"], map["main" := ["my_var"]]) ==
         Ok((be1.(imports := ["stdio.h", "stdio.h"]), Join(IncludeLines(["stdio.h", "stdio.h"]), "\n") + "\n" + ExampleFunctionText))
  {
    var be1 := CBackend(ExampleModuleShape, ["stdio.h"], fmt);
    ExampleShapeCompiles(fmt);
    assert be1.imports + ["stdio.h"] == ["stdio.h", "stdio.h"];
    EmitOneFunction(be1, "main", ["my_var"]);
  }

  /** The same for the module the test builds. */
  lemma ExampleEmitTwice(fmt: F64 -> string)
    ensures var be1 := CBackend(ExampleModule(), ["stdio.h"], fmt);
      && ValidOrders(be1.ir, ["main"], map["main" := ["my_var"]])
      && Emit(be1, ["main"], map["main" := ["my_var"]]).Ok?
      && Emit(be1, ["main"], map["main" := ["my_var"]]).value.0.imports == ["stdio.h", "stdio.h"]
  {
    ExampleModuleIs();
    ShapeEmitTwice(fmt);
  }
}

=== FILE: text.dfy ===
/** Text helpers for the C emitter: decimal rendering of integers the way
    Rust's `Display` prints them, `join` over a list of strings, flattening of
    nested lists, and the duplicate-free / enumeration predicates used for
    import lists and hash-map iteration orders. */
module Text {

  /** The character of one decimal digit. */
  function DigitChar(d: nat): (c: char)
    requires d < 10
    ensures '0' <= c <= '9'
    ensures c as int - '0' as int == d
  {
    (('0' as int) + d) as char
  }

  predicate IsDigits(s: string) {
    forall i :: 0 <= i < |s| ==> '0' <= s[i] <= '9'
  }

  /** Decimal text of a natural number, as Rust's `Display` prints a `u32` or `u64`. */
  function Decimal(n: nat): (s: string)
    ensures 0 < |s|
    ensures IsDigits(s)
    ensures s[0] == '0' ==> n == 0
    ensures n == 0 ==> s == "0"
    decreases n
  {
    if n < 10 then [DigitChar(n)] else Decimal(n / 10) + [DigitChar(n % 10)]
  }

  /** The number a string of decimal digits denotes; the reference reading of `Decimal`. */
  function DigitsValue(s: string): nat
    requires IsDigits(s)
  {
    if s == [] then 0 else DigitsValue(s[..|s| - 1]) * 10 + (s[|s| - 1] as int - '0' as int)
  }

  /** Reading back the decimal text of `n` gives `n`. */
  lemma {:induction false} DecimalRoundTrip(n: nat)
    ensures DigitsValue(Decimal(n)) == n
  {
    if n >= 10 {
      var s := Decimal(n);
      assert s[..|s| - 1] == Decimal(n / 10);
      DecimalRoundTrip(n / 10);
    }
  }

  /** Distinct numbers have distinct decimal texts. */
  lemma DecimalInjective(a: nat, b: nat)
    ensures Decimal(a) == Decimal(b) ==> a == b
  {
    DecimalRoundTrip(a);
    DecimalRoundTrip(b);
  }

  /** Decimal text of an integer, with a leading `-` when negative (Rust's `isize` `Display`). */
  function SignedDecimal(i: int): (s: string)
    ensures 0 < |s|
    ensures s[0] == '-' <==> i < 0
  {
    if i < 0 then "-" + Decimal(-i) else Decimal(i)
  }

  /** Distinct integers have distinct signed decimal texts. */
  lemma SignedDecimalInjective(a: int, b: int)
    ensures SignedDecimal(a) == SignedDecimal(b) ==> a == b
  {
    var sa, sb := SignedDecimal(a), SignedDecimal(b);
    if sa == sb {
      if a < 0 {
        assert b < 0;
        var da, db := Decimal(-a), Decimal(-b);
        assert sa == "-" + da && sb == "-" + db;
        assert da == sa[1..] == db;
        DecimalInjective(-a, -b);
      } else {
        assert b >= 0;
        DecimalInjective(a, b);
      }
    }
  }

  /** Rust's `[String]::join(sep)`: the parts in order with `sep` between neighbours. */
  function Join(parts: seq<string>, sep: string): string
    decreases |parts|
  {
    if |parts| == 0 then ""
    else if |parts| == 1 then parts[0]
    else Join(parts[..|parts| - 1], sep) + sep + parts[|parts| - 1]
  }

  /** Two parts join as the first, the separator, and the second. */
  lemma JoinPair(a: string, b: string, sep: string)
    ensures Join([a, b], sep) == a + sep + b
  {
    assert [a, b][..1] == [a];
  }

  /** The lists of `xss`, concatenated in order (repeated `Vec::append`). */
  function Flatten<T>(xss: seq<seq<T>>): seq<T>
    decreases |xss|
  {
    if |xss| == 0 then [] else Flatten(xss[..|xss| - 1]) + xss[|xss| - 1]
  }

  /** Flattening a single part gives that part back. */
  lemma FlattenSingleton<T>(xs: seq<T>)
    ensures Flatten([xs]) == xs
  {
    assert [xs][..0] == [];
  }

  predicate Distinct<T(==)>(s: seq<T>) {
    forall i, j :: 0 <= i < j < |s| ==> s[i] != s[j]
  }

  /** `order` lists every key of `keys` exactly once: one admissible iteration
      order of a hash map whose key set is `keys`. */
  predicate Enumerates<T(==)>(order: seq<T>, keys: set<T>) {
    && Distinct(order)
    && (forall i :: 0 <= i < |order| ==> order[i] in keys)
    && (forall k :: k in keys ==> k in order)
  }
}

=== FILE: wrappers.dfy ===
/** Failure-compatible wrappers used across the model: `Option` for Rust's
    `Option`, and `Result` for operations whose Rust counterpart panics
    (an out-of-range index, an `unwrap` of `None`, an explicit `panic!`). */
module Wrappers {

  datatype Option<+T> = None | Some(value: T)

  datatype Result<+T, +E> = Ok(value: T) | Err(error: E) {

    predicate IsFailure() {
      Err?
    }

    function PropagateFailure<U>(): Result<U, E>
      requires Err?
    {
      Err(error)
    }

    function Extract(): T
      requires Ok?
    {
      value
    }
  }

  /** A loop that applies `?` to each result in turn: the first failure
      is returned, otherwise every value in order. */
  function Sequence<T, E>(rs: seq<Result<T, E>>): (r: Result<seq<T>, E>)
    ensures r.Ok? <==> forall i :: 0 <= i < |rs| ==> rs[i].Ok?
    ensures r.Ok? ==> |r.value| == |rs| && forall i :: 0 <= i < |rs| ==> rs[i] == Ok(r.value[i])
    ensures r.Err? ==> exists i :: 0 <= i < |rs| && rs[i] == Err(r.error) && forall j :: 0 <= j < i ==> rs[j].Ok?
  {
    if |rs| == 0 then Ok([])
    else
      var head :- rs[0];
      var rest :- Sequence(rs[1..]);
      assert forall i :: 0 < i < |rs| ==> rs[i] == rs[1..][i - 1];
      Ok([head] + rest)
  }
}
